=== FILE: README.md ===
# PersonaClix Engine core in Dafny

A model of the three core classes of the PersonaClix PHP micro-framework:

- **Router**: `register` stores a handler under its normalised HTTP method and its path. `route` looks up the request's raw method and URI in that two-level table.
- **Helpers\Form**: `open`, `input` and `close` build HTML text. The field half of `csrf_token` chooses a token and renders it as a hidden input.
- **Database**: the constructor checks its arguments, defaults the port and builds the MySQL DSN. `select`, `insert`, `update` and `delete` each build one SQL text plus one map from `:key` placeholders to values. The three guarded builders return early when there is no connection.

Modules:

- `Wrappers`: `Option`.
- `Strings`: ASCII `strtoupper`, joining with a separator, first-occurrence search, and decimal text of integers.
- `Router`.
- `Html`: attribute lists ` key="value"` and a parser that reads them back.
- `Form`.
- `Database`.

Reference definitions and inverses the properties are stated against:

- Routing is compared with a reference definition over the list of registrations, `Router.LastMatch`.
- Each form builder's output is read back by a parser (`Html.ParseAttrs`, `Form.ParseTag`, `Form.ParseInput`).
- The DSN is read back by `Database.ParseDsn`.
- Each SQL builder's loop is a method, proved equal to a functional definition built on `Strings.Join` and `Database.Bind`.

Modelling choices:

- The request method and URI are parameters of `Router.Route`; the PHP code reads them from `$_SERVER`.
- The Router's static state is an explicit `Table` value; each `register` returns the new table.
- A PHP associative array passed to the query builder (fields, where) is an ordered `seq<Entry<V>>`. Assigning into the parameter array is `Database.Bind`: later assignments to the same key replace earlier ones. Lemmas that need PHP's unique array keys require `DistinctKeys`.
- The outcome of each builder is `Call`:
  - `Skipped`: the builder returned early.
  - `Run(Statement(sql, params))`: the text passed to `prepare` and the map passed to `execute`. `map[]` stands for `execute()` with no arguments.
  - `Fatal`: `prepare` is called on a null connection.
- Whether `new PDO` succeeds is the boolean parameter `accepted` of `Database.Construct`.
- The `csrf_token` cookie, if present, is a parameter. So is the SHA-1 of the clock, named `generated`. The cookie the call sets is part of the result.
- `strtoupper` is modelled on ASCII letters only.

`Router.php` has no host matching, no named routes and no query-string handling. The model states these behaviours of its routing table:

- A later registration of the same method and path replaces the earlier one (`Router.LastRegistrationWins`).
- The request URI is compared verbatim (`Router.QueryStringNotStripped`).
- The request method is not normalised (`Router.RawMethodNotNormalized`).

## Model

| member | source | states |
|---|---|---|
| Router.NormalizeMethod | private/PersonaClix/Engine/Router.php:10-12 | the stored method is always "GET" or "POST", and it is "POST" exactly when the given method spells POST in any mixture of cases |
| Router.Register | private/PersonaClix/Engine/Router.php:9-17 | the handler is stored under the normalised method and the path; the method key is created if missing; every other method table and every other path entry is unchanged |
| Router.Route | private/PersonaClix/Engine/Router.php:19-28 | a handler is found exactly when the raw method is a key and the raw URI is a key under it, and it is the stored one; otherwise there is no result |
| Router.RegisterThenRoute | private/PersonaClix/Engine/Router.php:9-28 | after registering, a request with the normalised method and the same path gets the registered handler |
| Router.RegisterLeavesOtherRoutes | private/PersonaClix/Engine/Router.php:14-16 | a registration changes the routing of no other (method, path) pair |
| Router.LastRegistrationWins | private/PersonaClix/Engine/Router.php:16 | re-registering the same normalised method and path gives the same table as registering only the second handler |
| Router.RegistrationsCommute | private/PersonaClix/Engine/Router.php:14-16 | registrations for different (method, path) pairs can be made in either order |
| Router.RouteIsLastMatch | private/PersonaClix/Engine/Router.php:9-28 | after any sequence of registrations, routing returns the handler of the latest registration with exactly the request's normalised method and path, or nothing |
| Router.RegisteredMethodsAreCanonical | private/PersonaClix/Engine/Router.php:10-12 | every method key a sequence of registrations creates is "GET" or "POST" |
| Router.RawMethodNotNormalized | private/PersonaClix/Engine/Router.php:19-28 | a request method other than exactly "GET" or "POST" (for example lower-case "get") never finds a handler |
| Router.QueryStringNotStripped | private/PersonaClix/Engine/Router.php:19-28 | if no registered path contains '?', a request URI with a query string never finds a handler |
| Router.RegisterMethodKey | private/PersonaClix/Engine/Router.php:10-16 | a method that spells POST in any case is stored under "POST"; any other method, including PUT or "", is stored under "GET" |
| Html.Present | private/PersonaClix/Engine/Helpers/Form.php:76-88 | the emitted attributes are exactly the candidates with a non-empty value |
| Html.AttrsRoundTrip | private/PersonaClix/Engine/Helpers/Form.php:28 | an attribute list rendered as ` key="value"` pairs parses back to the same list, provided keys contain no '=' and values no '"' |
| Form.OpenMethod | private/PersonaClix/Engine/Helpers/Form.php:17-21 | the form method is "", "GET" or "POST"; it is empty exactly when the argument is empty, and POST exactly when the argument spells POST in any case |
| Form.OpenAttrs | private/PersonaClix/Engine/Helpers/Form.php:28 | the attributes of the opening tag keep the order method, action, name, with each key at most once |
| Form.OpenAttrValue | private/PersonaClix/Engine/Helpers/Form.php:17-28 | method, action and name each appear exactly when their value is non-empty, and then carry that value |
| Form.Open | private/PersonaClix/Engine/Helpers/Form.php:15-29 | the output of `open` parses as a `<form ...>` tag whose attribute list is exactly the one `open` chose, whenever action and name contain no '"' |
| Form.OpenReadsBack | private/PersonaClix/Engine/Helpers/Form.php:15-29 | reading the opening tag back gives the non-empty ones of method, action and name, in order; an empty method is left out and does not default to GET |
| Form.InputAttrs | private/PersonaClix/Engine/Helpers/Form.php:74-90 | the input tag's attributes keep the order type, name, id, class, style, value, with each key at most once |
| Form.InputAttrValue | private/PersonaClix/Engine/Helpers/Form.php:41-88 | each of the six attributes appears exactly when its option is non-empty and carries that option; when a label and name are given but no id, the name stands in as id |
| Form.InputTagReadsBack | private/PersonaClix/Engine/Helpers/Form.php:72-90 | the `<input ...>` part parses back to exactly the attribute list `input` chose |
| Form.Input | private/PersonaClix/Engine/Helpers/Form.php:39-96 | the whole output of `input` reads back as the chosen label (its target and text), if any, followed by exactly the chosen input attributes, whenever no attribute value contains '"' and the label text contains no '<' |
| Form.LabelPointsAtInput | private/PersonaClix/Engine/Helpers/Form.php:54-82 | whenever a label is chosen, its `for` target is non-empty and equals the `id` attribute the input is given; for readable options the same holds of the text read back |
| Form.LabelRule | private/PersonaClix/Engine/Helpers/Form.php:53-70 | for every option map, the output starts with a label exactly when there is label text and an id or a name, and the label opens with `<label for="target">` where the target is the id if given, else the name; for readable options a reader gets the same label and target back |
| Form.InputIgnoresOtherKeys | private/PersonaClix/Engine/Helpers/Form.php:41-47 | options that agree on the seven recognised keys produce the same output; all other keys are ignored |
| Form.CsrfToken | private/PersonaClix/Engine/Helpers/Form.php:104-133 | a cookie is set exactly when none was sent, and then to the generated token; the token-only form returns the cookie's token if set, else the generated one |
| Form.CsrfFieldCarriesToken | private/PersonaClix/Engine/Helpers/Form.php:104-133 | in both forms the cookie is set to the emitted token when none was sent and is left alone otherwise; for every token, the field form is exactly an input tag with no label, type hidden, name csrf_token, the token as value, and no id, class or style; a token without '"' reads back that way |
| Form.Close | private/PersonaClix/Engine/Helpers/Form.php:135-137 | `close` emits the closing tag of the `form` element that `open` starts |
| Database.ConnectionRequestOf | private/PersonaClix/Engine/Database.php:13-28 | a connection is attempted exactly when there are at least four arguments, the first four are strings, and the port is a string or an integer; the user and password passed on are the second and third arguments |
| Database.ConstructorDecidesBuilders | private/PersonaClix/Engine/Database.php:7-38 | fewer than four arguments or a refused connection leave the object without a connection; without one, `select`, `insert` and `update` return early and `delete` calls a method on null; with one, all four build a statement |
| Database.Dsn | private/PersonaClix/Engine/Database.php:31 | the DSN reads back as the host, database name and port it was built from, provided host and name contain no ';' |
| Database.ConstructorDsn | private/PersonaClix/Engine/Database.php:13-31 | with four string arguments a connection is attempted exactly when the fifth argument is missing, null, a string or an integer; the DSN then reads back as the first argument as host, the fourth as database name, and as port "3306" for a missing or null fifth argument, a string one verbatim, or an integer one in decimal |
| Database.ConstructorPort | private/PersonaClix/Engine/Database.php:21-31 | with four arguments the DSN's port is "3306"; with an integer fifth argument, the DSN's port text is that integer in decimal and reads back as that integer |
| Database.Select | private/PersonaClix/Engine/Database.php:47-51 | `select` returns early exactly when there is no connection, and never calls a method on a missing connection |
| Database.Insert | private/PersonaClix/Engine/Database.php:127-131 | `insert` returns early exactly when there is no connection, and never calls a method on a missing connection |
| Database.Update | private/PersonaClix/Engine/Database.php:175-179 | `update` returns early exactly when there is no connection, and never calls a method on a missing connection |
| Database.UpdateBound | private/PersonaClix/Engine/Database.php:175-242 | the corrected `update` keeps the connection guard, never calls a method on a missing connection, and agrees with the original whenever a WHERE map is given |
| Database.Delete | private/PersonaClix/Engine/Database.php:249-289 | as written, `delete` calls a method on null exactly when there is no connection and never returns early; with a connection, it binds parameters exactly when a WHERE map is given |
| Database.DeleteGuarded | private/PersonaClix/Engine/Database.php:249-289 | the corrected `delete` returns early exactly when there is no connection, and with a connection it does what the original does |
| Database.BuildFieldList | private/PersonaClix/Engine/Database.php:53-68 | the counter loop produces the fields joined by ", ", with no leading or trailing separator |
| Database.BuildWhere | private/PersonaClix/Engine/Database.php:72-96 | the WHERE loop produces the `key = :key` fragments joined by " AND ", and assigns each value under its `:key`, later keys replacing earlier ones |
| Database.BuildInsertLists | private/PersonaClix/Engine/Database.php:133-158 | the insert loop produces the column list and the matching `:column` list, both joined by ", ", and binds each value under its tag |
| Database.BuildSetList | private/PersonaClix/Engine/Database.php:181-201 | the SET loop produces the `key = :key` fragments joined by ", ", and binds each value under its `:key` |
| Database.BindKeys | private/PersonaClix/Engine/Database.php:86-96 | the parameter array holds the initial keys plus one `:key` per entry, and nothing else |
| Database.BindValue | private/PersonaClix/Engine/Database.php:89 | with unique keys, every entry's value is bound under its own `:key` |
| Database.BindSize | private/PersonaClix/Engine/Database.php:86-96 | with unique keys, the parameter array has one binding per entry |
| Database.SelectBindings | private/PersonaClix/Engine/Database.php:82-109 | without a WHERE map, `select` runs `SELECT fields FROM table` with no parameters; with one, it appends the AND-joined clause and binds every WHERE value under its placeholder, one binding per key |
| Database.InsertAligned | private/PersonaClix/Engine/Database.php:142-163 | the SQL of `insert` is `INSERT INTO table(columns) VALUES(tags)`, with one tag per column in the same order; the tag list is exactly one ':' per column longer, so the SQL's length is fixed by the table, the column list and the field count; every field value is bound under its tag |
| Database.UpdateWhereOverridesSet | private/PersonaClix/Engine/Database.php:188-230 | a WHERE key that is also a SET key binds the WHERE value, so the SET value for that column is lost |
| Database.UpdateKeepsOtherSetValues | private/PersonaClix/Engine/Database.php:188-230 | with a WHERE map, a SET value whose key is not a WHERE key keeps its own binding |
| Database.DeleteStatement | private/PersonaClix/Engine/Database.php:251-284 | without a WHERE map `delete` runs TRUNCATE TABLE with no parameters; with one, it runs DELETE FROM ... WHERE and binds every WHERE value under its placeholder |
| Database.UpdateWithoutWhereLeavesPlaceholdersUnbound | private/PersonaClix/Engine/Database.php:231-237 | as written, `update` without a WHERE map sends SQL containing the first field's placeholder but binds no parameters |
| Database.UpdateBoundBindsEveryPlaceholder | private/PersonaClix/Engine/Database.php:188-237 | in the corrected `update`, every SET and WHERE placeholder is bound, with or without a WHERE map |
| Database.DeleteWithoutConnectionIsFatal | private/PersonaClix/Engine/Database.php:249-282 | as written, `delete` without a connection always ends in a method call on null |

## Left out

- `Form::field` (Form.php:139-147) reads the `$_GET`/`$_POST` superglobal named by a variable variable. It also scans `Form::$fields`, which nothing in the class ever fills. The model has no request data.
- The static `Form::$method`, `$action` and `$name` that `open` saves are never read by the modelled operations, so they are not modelled.
- The clock, `sha1`, `setcookie` and the cookie's five-minute lifetime in `csrf_token` are not modelled. The token source and the cookie are parameters, and the cookie that would be set is a result field.
- Executing statements is not modelled: `execute`, `rowCount`, `fetchAll`, and the boolean results of `insert`, `update` and `delete`. Neither is the `error_log` call on a failed connection. Each builder stops at the statement it hands to PDO.
- Form options, and the keys and values of the query builder, are strings or an opaque value type. PHP's loose `!=` comparisons on non-string option values (null, false, 0) are not modelled. Neither is PHP's conversion of numeric-string array keys to integers, which leaves the concatenated text unchanged.
- HTML escaping: the helpers emit values verbatim. The read-back properties therefore require that the emitted attribute values contain no '"' and that the label text contains no '<'.
- Html.AttrsRoundTrip: also requires that attribute keys contain no '=', because the reader splits on the first '='.
- Database.Dsn: the read-back holds only when host and database name contain no ';'. A DSN reader cannot separate such values, so this is weaker than the bare concatenation.
- Database.ConstructorDsn: requires that host and database name contain no ';', for the same reason. For four string arguments it covers every kind of fifth argument; with a fifth argument of another type no connection is attempted, so there is no DSN to read back.
- Database.ConstructorPort: requires that host and database name contain no ';', for the same reason. It speaks only of the four-argument and integer-port cases; Database.ConstructorDsn covers the others.
- Strings.Upper: models `strtoupper` on ASCII only. Multibyte or locale-dependent case mapping is not covered.
- `Helpers/Request.php`, `Configuration.php` and `autoload.php` are not part of this model.

## Findings

| source | as written | input that shows it | evidently intended | confidence | as-written member | corrected member |
|---|---|---|---|---|---|---|
| private/PersonaClix/Engine/Database.php:231-237 | without a WHERE map, `update` prepares `UPDATE t SET k = :k, ...` but calls `execute()` with no parameters | `update("t", ["a" => 1])` sends `UPDATE t SET a = :a` with no binding for `:a` | bind the SET values, as the WHERE branch does | high; not executed | Database.UpdateWithoutWhereLeavesPlaceholdersUnbound | Database.UpdateBoundBindsEveryPlaceholder |
| private/PersonaClix/Engine/Database.php:249-282 | `delete` lacks the `instanceof \PDO` check the other three builders have | `delete("t")` on an object whose connection failed calls `prepare` on null, a fatal error | return early without a connection, as `select`, `insert` and `update` do | high; not executed | Database.DeleteWithoutConnectionIsFatal | Database.DeleteGuarded |

=== FILE: database.dfy ===
/** The query builder of Database.php. The constructor decides whether a
    connection is attempted and with which DSN; `select`, `insert`, `update`
    and `delete` each build one SQL text and one map from `:key` placeholders
    to values. Executing the statement is PDO's business and is not modelled:
    a builder's result is the statement it would hand to PDO, `Skipped` when
    it returns early for want of a connection, and `Fatal` when it would call
    a method on the missing connection. */
module Database {
  import opened Wrappers
  import Strings

  // -----------------------------------------------------------------------
  // Constructor: argument checks, port default and DSN
  // -----------------------------------------------------------------------

  /** The PHP values the constructor distinguishes among its arguments. */
  datatype PhpValue = Str(s: string) | Int(i: int) | Null | Other

  /** What the constructor hands to `new PDO`: DSN, user name and password. */
  datatype ConnectionRequest = ConnectionRequest(dsn: string, user: string, password: string)

  const DefaultPort: int := 3306

  const DsnPrefix: string := "mysql:host="

  /** The DSN the constructor builds. It reads back as the host, database
      name and port it was built from, as long as host and name contain no
      ';'. */
  function Dsn(host: string, dbName: string, port: string): (r: string)
    ensures ';' !in host && ';' !in dbName ==> ParseDsn(r) == Some(DsnParts(host, dbName, port))
  {
    DsnTextParses(host, dbName, port);
    DsnPrefix + host + ";dbname=" + dbName + ";port=" + port
  }

  /** The fifth argument when it is set (present and not null), else 3306. */
  function PortArgument(args: seq<PhpValue>): PhpValue
  {
    if |args| > 4 && !args[4].Null? then args[4] else Int(DefaultPort)
  }

  /** The port as it appears in the DSN: a string as is, an integer in decimal. */
  function PortText(port: PhpValue): string
    requires port.Str? || port.Int?
  {
    if port.Str? then port.s else Strings.IntToString(port.i)
  }

  /** The connection the constructor attempts: only with at least four
      arguments, host, user, password and database name strings, and a port
      that is a string or an integer. */
  function ConnectionRequestOf(args: seq<PhpValue>): (r: Option<ConnectionRequest>)
    ensures r.Some? <==> && |args| >= 4
                         && args[0].Str? && args[1].Str? && args[2].Str? && args[3].Str?
                         && (PortArgument(args).Str? || PortArgument(args).Int?)
    ensures r.Some? ==> r.value.user == args[1].s && r.value.password == args[2].s
  {
    if |args| < 4 then None
    else
      var port := PortArgument(args);
      if args[0].Str? && args[1].Str? && args[2].Str? && args[3].Str? && (port.Int? || port.Str?) then
        Some(ConnectionRequest(Dsn(args[0].s, args[3].s, PortText(port)), args[1].s, args[2].s))
      else
        None
  }

  /** Whether the object ends up holding a connection. `accepted` stands for
      the outcome of `new PDO`: a failure is caught and logged, and leaves the
      object without a connection. */
  function Construct(args: seq<PhpValue>, accepted: bool): bool
  {
    ConnectionRequestOf(args).Some? && accepted
  }

  /** The three fields of a DSN as a reader of `key=value;` pairs sees them. */
  datatype DsnParts = DsnParts(host: string, dbName: string, port: string)

  function ParseDsn(s: string): Option<DsnParts>
  {
    if |s| < |DsnPrefix| || s[..|DsnPrefix|] != DsnPrefix then None
    else
      var afterPrefix := s[|DsnPrefix|..];
      var i := Strings.IndexOf(afterPrefix, ';');
      var fromDb := afterPrefix[i..];
      if |fromDb| < 8 || fromDb[..8] != ";dbname=" then None
      else
        var afterDb := fromDb[8..];
        var j := Strings.IndexOf(afterDb, ';');
        var fromPort := afterDb[j..];
        if |fromPort| < 6 || fromPort[..6] != ";port=" then None
        else Some(DsnParts(afterPrefix[..i], afterDb[..j], fromPort[6..]))
  }

  lemma DsnTextParses(host: string, dbName: string, port: string)
    ensures ';' !in host && ';' !in dbName ==>
              ParseDsn(DsnPrefix + host + ";dbname=" + dbName + ";port=" + port) == Some(DsnParts(host, dbName, port))
  {
    if ';' !in host && ';' !in dbName {
      var s := DsnPrefix + host + ";dbname=" + dbName + ";port=" + port;
      assert s == DsnPrefix + (host + (";dbname=" + (dbName + (";port=" + port))));
      assert s[..|DsnPrefix|] == DsnPrefix;
      var afterPrefix := s[|DsnPrefix|..];
      assert afterPrefix == host + (";dbname=" + (dbName + (";port=" + port)));
      Strings.IndexOfAfter(host, ";dbname=" + (dbName + (";port=" + port)), ';');
      var fromDb := afterPrefix[|host|..];
      assert fromDb == ";dbname=" + (dbName + (";port=" + port));
      assert fromDb[..8] == ";dbname=";
      var afterDb := fromDb[8..];
      assert afterDb == dbName + (";port=" + port);
      Strings.IndexOfAfter(dbName, ";port=" + port, ';');
      var fromPort := afterDb[|dbName|..];
      assert fromPort == ";port=" + port;
      assert fromPort[..6] == ";port=";
      assert fromPort[6..] == port;
      assert afterPrefix[..|host|] == host;
      assert afterDb[..|dbName|] == dbName;
    }
  }

  lemma DefaultPortText()
    ensures Strings.IntToString(DefaultPort) == "3306"
  {
    assert Strings.NatToString(3) == "3";
    assert Strings.NatToString(33) == "3" + "3";
    assert Strings.NatToString(330) == "33" + "0";
  }

  /** With four string arguments the connection is attempted exactly when
      the fifth argument, if any, is a string, an integer or null, and its DSN
      reads back as the first argument as host, the fourth as database name,
      and as port "3306" when the fifth is missing or null, a string fifth
      argument verbatim, or an integer one in decimal. */
  lemma ConstructorDsn(args: seq<PhpValue>)
    requires |args| >= 4 && args[0].Str? && args[1].Str? && args[2].Str? && args[3].Str?
    requires ';' !in args[0].s && ';' !in args[3].s
    ensures ConnectionRequestOf(args).Some? <==> |args| == 4 || !args[4].Other?
    ensures ConnectionRequestOf(args).Some? ==>
              ParseDsn(ConnectionRequestOf(args).value.dsn)
              == Some(DsnParts(args[0].s, args[3].s,
                               if |args| == 4 || args[4].Null? then "3306"
                               else if args[4].Str? then args[4].s
                               else Strings.IntToString(args[4].i)))
  {
    DefaultPortText();
  }

  /** With exactly four string arguments the connection uses port 3306; with
      a fifth integer argument the DSN's port reads back as that integer. */
  lemma ConstructorPort(args: seq<PhpValue>)
    requires |args| >= 4 && args[0].Str? && args[1].Str? && args[2].Str? && args[3].Str?
    requires ';' !in args[0].s && ';' !in args[3].s
    ensures |args| == 4 ==>
              ConnectionRequestOf(args).Some?
              && ParseDsn(ConnectionRequestOf(args).value.dsn) == Some(DsnParts(args[0].s, args[3].s, "3306"))
    ensures |args| > 4 && args[4].Int? ==>
              ConnectionRequestOf(args).Some?
              && ParseDsn(ConnectionRequestOf(args).value.dsn).Some?
              && var port := ParseDsn(ConnectionRequestOf(args).value.dsn).value.port;
                 |port| > 0 && (port[0] == '-' || Strings.IsDigit(port[0]))
                 && (forall k :: 1 <= k < |port| ==> Strings.IsDigit(port[k]))
                 && Strings.ParseInt(port) == args[4].i
  {
    var port := PortArgument(args);
    if port.Int? {
      Strings.IntToStringRoundTrip(port.i);
      if |args| == 4 {
        DefaultPortText();
      }
    }
  }

  /** Whatever the arguments, a constructed object without a connection makes
      `select`, `insert` and `update` return early and makes `delete` call a
      method on null; with a connection, all four build a statement. Fewer
      than four arguments or a refused connection leave it without one. */
  lemma ConstructorDecidesBuilders<V>(args: seq<PhpValue>, accepted: bool, columns: seq<string>, table: string,
                                      fields: seq<Entry<V>>, where: seq<Entry<V>>)
    ensures |args| < 4 || !accepted ==> !Construct(args, accepted)
    ensures var connected := Construct(args, accepted);
            !connected ==>
              && Select(connected, columns, table, where) == Skipped
              && Insert(connected, table, fields) == Skipped
              && Update(connected, table, fields, where) == Skipped
              && Delete(connected, table, where) == Fatal
    ensures var connected := Construct(args, accepted);
            connected ==>
              && Select(connected, columns, table, where).Run?
              && Insert(connected, table, fields).Run?
              && Update(connected, table, fields, where).Run?
              && Delete(connected, table, where).Run?
  {
  }

  // -----------------------------------------------------------------------
  // Statements
  // -----------------------------------------------------------------------

  /** One key => value pair of a PHP associative array, in array order. */
  datatype Entry<V> = Entry(key: string, val: V)

  /** The SQL text handed to `prepare` and the parameters handed to `execute`
      (an empty map when `execute` is called without arguments). */
  datatype Statement<V> = Statement(sql: string, params: map<string, V>)

  /** Skipped: returned early, no SQL built. Run: the statement executed.
      Fatal: `prepare` called on the missing connection. */
  datatype Call<V> = Skipped | Run(stmt: Statement<V>) | Fatal

  /** PHP array keys are unique. */
  predicate DistinctKeys<V>(es: seq<Entry<V>>)
  {
    forall i, j :: 0 <= i < j < |es| ==> es[i].key != es[j].key
  }

  function KeysOf<V>(es: seq<Entry<V>>): (ks: seq<string>)
    ensures |ks| == |es|
    ensures forall i :: 0 <= i < |es| ==> ks[i] == es[i].key
  {
    seq(|es|, i requires 0 <= i < |es| => es[i].key)
  }

  function Placeholder(key: string): string
  {
    ":" + key
  }

  lemma PlaceholderInjective(a: string, b: string)
    ensures Placeholder(a) == Placeholder(b) <==> a == b
  {
    if Placeholder(a) == Placeholder(b) {
      assert Placeholder(a)[1..] == a && Placeholder(b)[1..] == b;
    }
  }

  function Placeholders(ks: seq<string>): (ps: seq<string>)
    ensures |ps| == |ks|
    ensures forall i :: 0 <= i < |ks| ==> ps[i] == Placeholder(ks[i])
  {
    seq(|ks|, i requires 0 <= i < |ks| => Placeholder(ks[i]))
  }

  /** `key = :key`, the fragment of SET lists and WHERE clauses. */
  function Assignment(key: string): string
  {
    key + " = :" + key
  }

  function Assignments(ks: seq<string>): (fs: seq<string>)
    ensures |fs| == |ks|
    ensures forall i :: 0 <= i < |ks| ==> fs[i] == Assignment(ks[i])
  {
    seq(|ks|, i requires 0 <= i < |ks| => Assignment(ks[i]))
  }

  function WhereClause<V>(where: seq<Entry<V>>): string
  {
    Strings.Join(Assignments(KeysOf(where)), " AND ")
  }

  /** Assigns `:key => value` for each entry in order onto `init`; a later
      assignment to the same placeholder replaces an earlier one. */
  function Bind<V>(init: map<string, V>, es: seq<Entry<V>>): map<string, V>
  {
    if |es| == 0 then init
    else Bind(init, es[..|es| - 1])[Placeholder(es[|es| - 1].key) := es[|es| - 1].val]
  }

  // -----------------------------------------------------------------------
  // The four builders
  // -----------------------------------------------------------------------

  function Select<V>(connected: bool, fields: seq<string>, table: string, where: seq<Entry<V>>): (c: Call<V>)
    ensures c.Skipped? <==> !connected
    ensures !c.Fatal?
  {
    if !connected then Skipped
    else
      var head := "SELECT " + Strings.Join(fields, ", ") + " FROM " + table;
      if |where| == 0 then Run(Statement(head, map[]))
      else Run(Statement(head + " WHERE " + WhereClause(where), Bind(map[], where)))
  }

  function Insert<V>(connected: bool, table: string, fields: seq<Entry<V>>): (c: Call<V>)
    ensures c.Skipped? <==> !connected
    ensures !c.Fatal?
  {
    if !connected then Skipped
    else
      var columns := Strings.Join(KeysOf(fields), ", ");
      var tags := Strings.Join(Placeholders(KeysOf(fields)), ", ");
      Run(Statement("INSERT INTO " + table + "(" + columns + ") VALUES(" + tags + ")", Bind(map[], fields)))
  }

  /** `update` as written: without a WHERE clause `execute` is called with no
      parameters, although the SET list has a placeholder per field. */
  function Update<V>(connected: bool, table: string, fields: seq<Entry<V>>, where: seq<Entry<V>>): (c: Call<V>)
    ensures c.Skipped? <==> !connected
    ensures !c.Fatal?
  {
    if !connected then Skipped
    else
      var head := "UPDATE " + table + " SET " + Strings.Join(Assignments(KeysOf(fields)), ", ");
      if |where| == 0 then Run(Statement(head, map[]))
      else Run(Statement(head + " WHERE " + WhereClause(where), Bind(Bind(map[], fields), where)))
  }

  /** `update` as evidently intended: the SET values are bound in both branches. */
  function UpdateBound<V>(connected: bool, table: string, fields: seq<Entry<V>>, where: seq<Entry<V>>): (c: Call<V>)
    ensures c.Skipped? <==> !connected
    ensures !c.Fatal?
    ensures |where| > 0 ==> c == Update(connected, table, fields, where)
  {
    if !connected then Skipped
    else
      var head := "UPDATE " + table + " SET " + Strings.Join(Assignments(KeysOf(fields)), ", ");
      if |where| == 0 then Run(Statement(head, Bind(map[], fields)))
      else Run(Statement(head + " WHERE " + WhereClause(where), Bind(Bind(map[], fields), where)))
  }

  /** `delete` as written: there is no connection check, so without a
      connection the call reaches `prepare` on null. */
  function Delete<V>(connected: bool, table: string, where: seq<Entry<V>>): (c: Call<V>)
    ensures c.Fatal? <==> !connected
    ensures !c.Skipped?
    ensures c.Run? ==> (c.stmt.params == map[] <==> |where| == 0)
  {
    if !connected then Fatal
    else if |where| == 0 then Run(Statement("TRUNCATE TABLE " + table, map[]))
    else
      BindKeys(map[], where);
      assert Placeholder(where[0].key) in BoundPlaceholders(where);
      Run(Statement("DELETE FROM " + table + " WHERE " + WhereClause(where), Bind(map[], where)))
  }

  /** `delete` with the connection check the other three builders have. */
  function DeleteGuarded<V>(connected: bool, table: string, where: seq<Entry<V>>): (c: Call<V>)
    ensures c.Skipped? <==> !connected
    ensures !c.Fatal?
    ensures connected ==> c == Delete(connected, table, where)
  {
    if !connected then Skipped else Delete(connected, table, where)
  }

  // -----------------------------------------------------------------------
  // The source's loops, proved to compute the definitions above
  // -----------------------------------------------------------------------

  /** Adds one more item in the loops' style: the item, then a separator
      unless it was the last. */
  lemma JoinStep(xs: seq<string>, k: nat, sep: string, acc: string)
    requires k < |xs|
    requires acc == Strings.Join(xs[..k], sep) + (if 0 < k then sep else "")
    ensures acc + xs[k] == Strings.Join(xs[..k + 1], sep)
  {
    if k > 0 {
      assert xs[..k + 1][..k] == xs[..k];
    }
  }

  /** One more assignment into the parameter array. */
  lemma BindStep<V>(init: map<string, V>, es: seq<Entry<V>>, k: nat)
    requires k < |es|
    ensures Bind(init, es[..k + 1]) == Bind(init, es[..k])[Placeholder(es[k].key) := es[k].val]
  {
    assert es[..k + 1][..k] == es[..k];
  }

  /** The field list of `select`: a counter `q` adds ", " after every field
      but the last. */
  method BuildFieldList(fields: seq<string>) returns (s: string)
    ensures s == Strings.Join(fields, ", ")
  {
    s := "";
    var q := 1;
    for k := 0 to |fields|
      invariant q == k + 1
      invariant s == Strings.Join(fields[..k], ", ") + (if 0 < k < |fields| then ", " else "")
    {
      JoinStep(fields, k, ", ", s);
      s := s + fields[k];
      if q < |fields| {
        s := s + ", ";
      }
      q := q + 1;
    }
    assert fields[..|fields|] == fields;
  }

  /** The WHERE loop shared by `select`, `update` and `delete`: `k = :k`
      fragments joined by " AND ", each value assigned under `:k`. */
  method BuildWhere<V>(where: seq<Entry<V>>, init: map<string, V>) returns (clause: string, params: map<string, V>)
    ensures clause == WhereClause(where)
    ensures params == Bind(init, where)
  {
    var frags := Assignments(KeysOf(where));
    clause := "";
    params := init;
    var w := 1;
    for k := 0 to |where|
      invariant w == k + 1
      invariant clause == Strings.Join(frags[..k], " AND ") + (if 0 < k < |where| then " AND " else "")
      invariant params == Bind(init, where[..k])
    {
      JoinStep(frags, k, " AND ", clause);
      BindStep(init, where, k);
      clause := clause + (where[k].key + " = :" + where[k].key);
      params := params[":" + where[k].key := where[k].val];
      if w < |where| {
        clause := clause + " AND ";
      }
      w := w + 1;
    }
    assert frags[..|where|] == frags;
    assert where[..|where|] == where;
  }

  /** The loop of `insert`: column names and `:name` tags grow side by side,
      with the same separators, and each value is assigned under its tag. */
  method BuildInsertLists<V>(fields: seq<Entry<V>>) returns (columns: string, tags: string, params: map<string, V>)
    ensures columns == Strings.Join(KeysOf(fields), ", ")
    ensures tags == Strings.Join(Placeholders(KeysOf(fields)), ", ")
    ensures params == Bind(map[], fields)
  {
    var names := KeysOf(fields);
    var marks := Placeholders(names);
    columns, tags, params := "", "", map[];
    var q := 1;
    for k := 0 to |fields|
      invariant q == k + 1
      invariant columns == Strings.Join(names[..k], ", ") + (if 0 < k < |fields| then ", " else "")
      invariant tags == Strings.Join(marks[..k], ", ") + (if 0 < k < |fields| then ", " else "")
      invariant params == Bind(map[], fields[..k])
    {
      assert names[k] == fields[k].key && marks[k] == ":" + fields[k].key;
      JoinStep(names, k, ", ", columns);
      JoinStep(marks, k, ", ", tags);
      BindStep(map[], fields, k);
      columns := columns + fields[k].key;
      tags := tags + (":" + fields[k].key);
      params := params[":" + fields[k].key := fields[k].val];
      if q < |fields| {
        columns := columns + ", ";
        tags := tags + ", ";
      }
      q := q + 1;
    }
    assert names[..|fields|] == names && marks[..|fields|] == marks;
    assert fields[..|fields|] == fields;
  }

  /** The SET loop of `update`: `name = :name` fragments joined by ", ". */
  method BuildSetList<V>(fields: seq<Entry<V>>) returns (setList: string, params: map<string, V>)
    ensures setList == Strings.Join(Assignments(KeysOf(fields)), ", ")
    ensures params == Bind(map[], fields)
  {
    var frags := Assignments(KeysOf(fields));
    setList, params := "", map[];
    var q := 1;
    for k := 0 to |fields|
      invariant q == k + 1
      invariant setList == Strings.Join(frags[..k], ", ") + (if 0 < k < |fields| then ", " else "")
      invariant params == Bind(map[], fields[..k])
    {
      JoinStep(frags, k, ", ", setList);
      BindStep(map[], fields, k);
      setList := setList + (fields[k].key + " = :" + fields[k].key);
      params := params[":" + fields[k].key := fields[k].val];
      if q < |fields| {
        setList := setList + ", ";
      }
      q := q + 1;
    }
    assert frags[..|fields|] == frags;
    assert fields[..|fields|] == fields;
  }

  // -----------------------------------------------------------------------
  // Bindings
  // -----------------------------------------------------------------------

  /** The placeholders the entries bind. */
  function BoundPlaceholders<V>(es: seq<Entry<V>>): set<string>
  {
    set i | 0 <= i < |es| :: Placeholder(es[i].key)
  }

  /** The binding map holds the initial keys plus exactly one `:key` per entry key. */
  lemma {:induction false} BindKeys<V>(init: map<string, V>, es: seq<Entry<V>>)
    ensures Bind(init, es).Keys == init.Keys + BoundPlaceholders(es)
  {
    if |es| > 0 {
      var prefix := es[..|es| - 1];
      BindKeys(init, prefix);
      assert BoundPlaceholders(es) == BoundPlaceholders(prefix) + {Placeholder(es[|es| - 1].key)} by {
        forall p | p in BoundPlaceholders(es)
          ensures p in BoundPlaceholders(prefix) + {Placeholder(es[|es| - 1].key)}
        {
          var i :| 0 <= i < |es| && p == Placeholder(es[i].key);
          if i < |es| - 1 {
            assert prefix[i] == es[i];
          }
        }
        forall p | p in BoundPlaceholders(prefix) ensures p in BoundPlaceholders(es) {
          var i :| 0 <= i < |prefix| && p == Placeholder(prefix[i].key);
          assert prefix[i] == es[i];
        }
      }
    }
  }

  /** With unique keys, every entry's value is bound under its own placeholder. */
  lemma {:induction false} BindValue<V>(init: map<string, V>, es: seq<Entry<V>>, i: nat)
    requires DistinctKeys(es) && i < |es|
    ensures Placeholder(es[i].key) in Bind(init, es)
    ensures Bind(init, es)[Placeholder(es[i].key)] == es[i].val
  {
    if i < |es| - 1 {
      var prefix := es[..|es| - 1];
      assert prefix[i] == es[i];
      assert DistinctKeys(prefix) by {
        forall a, b | 0 <= a < b < |prefix| ensures prefix[a].key != prefix[b].key {
          assert prefix[a] == es[a] && prefix[b] == es[b];
        }
      }
      BindValue(init, prefix, i);
      PlaceholderInjective(es[i].key, es[|es| - 1].key);
    }
  }

  /** Entries that do not mention a placeholder leave its initial binding alone. */
  lemma {:induction false} BindKeepsOthers<V>(init: map<string, V>, es: seq<Entry<V>>, p: string)
    requires p in init
    requires forall i :: 0 <= i < |es| ==> Placeholder(es[i].key) != p
    ensures p in Bind(init, es) && Bind(init, es)[p] == init[p]
  {
    if |es| > 0 {
      var prefix := es[..|es| - 1];
      forall i | 0 <= i < |prefix| ensures Placeholder(prefix[i].key) != p {
        assert prefix[i] == es[i];
      }
      BindKeepsOthers(init, prefix, p);
    }
  }

  /** With unique keys, one binding per entry. */
  lemma {:induction false} BindSize<V>(es: seq<Entry<V>>)
    requires DistinctKeys(es)
    ensures |Bind(map[], es)| == |es|
  {
    if |es| > 0 {
      var prefix := es[..|es| - 1];
      var last := es[|es| - 1];
      assert DistinctKeys(prefix) by {
        forall a, b | 0 <= a < b < |prefix| ensures prefix[a].key != prefix[b].key {
          assert prefix[a] == es[a] && prefix[b] == es[b];
        }
      }
      BindSize(prefix);
      BindKeys(map[], prefix);
      forall i | 0 <= i < |prefix| ensures Placeholder(prefix[i].key) != Placeholder(last.key) {
        assert prefix[i] == es[i];
        PlaceholderInjective(last.key, prefix[i].key);
      }
      assert Placeholder(last.key) !in Bind(map[], prefix);
    }
  }

  // -----------------------------------------------------------------------
  // Properties of the builders
  // -----------------------------------------------------------------------

  /** `select` without a WHERE map runs `SELECT fields FROM table` with no
      parameters; with one, it appends the WHERE clause and binds each
      `:key` to its value, one binding per key. */
  lemma SelectBindings<V>(fields: seq<string>, table: string, where: seq<Entry<V>>)
    requires DistinctKeys(where)
    ensures |where| == 0 ==>
              Select(true, fields, table, where)
              == Run(Statement("SELECT " + Strings.Join(fields, ", ") + " FROM " + table, map[]))
    ensures |where| > 0 ==>
              var stmt := Select(true, fields, table, where).stmt;
              && stmt.sql == "SELECT " + Strings.Join(fields, ", ") + " FROM " + table + " WHERE " + WhereClause(where)
              && |stmt.params| == |where|
              && (forall i :: 0 <= i < |where| ==>
                  Placeholder(where[i].key) in stmt.params && stmt.params[Placeholder(where[i].key)] == where[i].val)
  {
    if |where| > 0 {
      BindSize(where);
      forall i | 0 <= i < |where|
        ensures Placeholder(where[i].key) in Bind(map[], where)
        ensures Bind(map[], where)[Placeholder(where[i].key)] == where[i].val
      {
        BindValue(map[], where, i);
      }
    }
  }

  /** `insert` names the columns and their tags in the same order, one tag
      per column (the tag list is one ':' per column longer, so the SQL text
      is the fixed words, the table, twice the column list and one character
      per field), and binds each tag to its value. */
  lemma InsertAligned<V>(table: string, fields: seq<Entry<V>>)
    requires DistinctKeys(fields)
    ensures var stmt := Insert(true, table, fields).stmt;
            var columns := Strings.Join(KeysOf(fields), ", ");
            var tags := Strings.Join(Placeholders(KeysOf(fields)), ", ");
            && stmt.sql == "INSERT INTO " + table + "(" + columns + ") VALUES(" + tags + ")"
            && |tags| == |columns| + |fields|
            && |stmt.sql| == |"INSERT INTO () VALUES()"| + |table| + 2 * |columns| + |fields|
    ensures var stmt := Insert(true, table, fields).stmt;
            && |Placeholders(KeysOf(fields))| == |KeysOf(fields)| == |fields|
            && |Strings.Join(Placeholders(KeysOf(fields)), ", ")| == |Strings.Join(KeysOf(fields), ", ")| + |fields|
            && |stmt.params| == |fields|
            && (forall i :: 0 <= i < |fields| ==>
                  Placeholder(fields[i].key) in stmt.params && stmt.params[Placeholder(fields[i].key)] == fields[i].val)
  {
    BindSize(fields);
    forall i | 0 <= i < |fields|
      ensures Placeholder(fields[i].key) in Bind(map[], fields)
      ensures Bind(map[], fields)[Placeholder(fields[i].key)] == fields[i].val
    {
      BindValue(map[], fields, i);
    }
    if |fields| > 0 {
      Strings.JoinLength(KeysOf(fields), ", ");
      Strings.JoinLength(Placeholders(KeysOf(fields)), ", ");
      PlaceholdersLength(KeysOf(fields));
    }
  }

  lemma {:induction false} PlaceholdersLength(ks: seq<string>)
    ensures Strings.TotalLength(Placeholders(ks)) == Strings.TotalLength(ks) + |ks|
  {
    if |ks| > 0 {
      var prefix := ks[..|ks| - 1];
      PlaceholdersLength(prefix);
      assert Placeholders(ks)[..|ks| - 1] == Placeholders(prefix);
    }
  }

  /** `update` puts WHERE values in the same parameter map as SET values: a
      WHERE key that is also a SET key overrides the SET value, so the column
      is "updated" to the value it is matched against. */
  lemma UpdateWhereOverridesSet<V>(table: string, fields: seq<Entry<V>>, where: seq<Entry<V>>, i: nat)
    requires DistinctKeys(where) && i < |where|
    requires where[i].key in KeysOf(fields)
    ensures Placeholder(where[i].key) in Update(true, table, fields, where).stmt.params
    ensures Update(true, table, fields, where).stmt.params[Placeholder(where[i].key)] == where[i].val
  {
    BindValue(Bind(map[], fields), where, i);
  }

  /** SET values whose key is not a WHERE key keep their own binding. */
  lemma UpdateKeepsOtherSetValues<V>(table: string, fields: seq<Entry<V>>, where: seq<Entry<V>>, i: nat)
    requires DistinctKeys(fields) && i < |fields| && |where| > 0
    requires fields[i].key !in KeysOf(where)
    ensures Placeholder(fields[i].key) in Update(true, table, fields, where).stmt.params
    ensures Update(true, table, fields, where).stmt.params[Placeholder(fields[i].key)] == fields[i].val
  {
    BindValue(map[], fields, i);
    forall j | 0 <= j < |where| ensures Placeholder(where[j].key) != Placeholder(fields[i].key) {
      PlaceholderInjective(where[j].key, fields[i].key);
    }
    BindKeepsOthers(Bind(map[], fields), where, Placeholder(fields[i].key));
  }

  /** `delete` without a WHERE map empties the table with TRUNCATE; with one
      it deletes the matching rows, binding each `:key` to its value. */
  lemma DeleteStatement<V>(table: string, where: seq<Entry<V>>)
    requires DistinctKeys(where)
    ensures |where| == 0 ==> Delete(true, table, where) == Run(Statement("TRUNCATE TABLE " + table, map[]))
    ensures |where| > 0 ==>
              var stmt := Delete(true, table, where).stmt;
              && stmt.sql == "DELETE FROM " + table + " WHERE " + WhereClause(where)
              && |stmt.params| == |where|
              && (forall i :: 0 <= i < |where| ==>
                  Placeholder(where[i].key) in stmt.params && stmt.params[Placeholder(where[i].key)] == where[i].val)
  {
    if |where| > 0 {
      BindSize(where);
      forall i | 0 <= i < |where|
        ensures Placeholder(where[i].key) in Bind(map[], where)
        ensures Bind(map[], where)[Placeholder(where[i].key)] == where[i].val
      {
        BindValue(map[], where, i);
      }
    }
  }

  // -----------------------------------------------------------------------
  // Findings
  // -----------------------------------------------------------------------

  /** `sub` occurs in `s` starting at index `i`. */
  predicate OccursAt(sub: string, s: string, i: int)
  {
    0 <= i && i + |sub| <= |s| && s[i..i + |sub|] == sub
  }

  predicate Occurs(sub: string, s: string)
  {
    exists i :: 0 <= i <= |s| && OccursAt(sub, s, i)
  }

  lemma OccursShift(sub: string, p: string, s: string, i: int)
    requires OccursAt(sub, s, i)
    ensures OccursAt(sub, p + s, |p| + i)
  {
    assert (p + s)[|p| + i..|p| + i + |sub|] == s[i..i + |sub|];
  }

  lemma OccursInPrefix(sub: string, s: string, t: string, i: int)
    requires |t| <= |s| && s[..|t|] == t && OccursAt(sub, t, i)
    ensures OccursAt(sub, s, i)
  {
    assert s[i..i + |sub|] == t[i..i + |sub|];
  }

  /** As written, `update` without a WHERE map sends SQL that contains the
      first field's placeholder but binds nothing, so the placeholder is
      unbound when PDO executes it. */
  lemma UpdateWithoutWhereLeavesPlaceholdersUnbound<V>(table: string, fields: seq<Entry<V>>)
    requires |fields| > 0
    ensures var stmt := Update(true, table, fields, []).stmt;
            Occurs(Placeholder(fields[0].key), stmt.sql) && Placeholder(fields[0].key) !in stmt.params
    ensures Update(true, table, fields, []).stmt.params == map[]
  {
    var k := fields[0].key;
    var frags := Assignments(KeysOf(fields));
    var setList := Strings.Join(frags, ", ");
    var head := "UPDATE " + table + " SET ";
    assert Update(true, table, fields, []) == Run(Statement(head + setList, map[]));
    assert frags[0] == k + " = " + Placeholder(k);
    Strings.Seams(k, " = ", Placeholder(k));
    assert OccursAt(Placeholder(k), frags[0], |k| + 3);
    Strings.JoinEnds(frags, ", ");
    OccursInPrefix(Placeholder(k), setList, frags[0], |k| + 3);
    OccursShift(Placeholder(k), head, setList, |k| + 3);
  }

  /** As evidently intended, every SET and WHERE placeholder is bound, with
      or without a WHERE map. */
  lemma UpdateBoundBindsEveryPlaceholder<V>(connected: bool, table: string, fields: seq<Entry<V>>, where: seq<Entry<V>>)
    requires connected
    ensures var params := UpdateBound(connected, table, fields, where).stmt.params;
            && (forall i :: 0 <= i < |fields| ==> Placeholder(fields[i].key) in params)
            && (forall i :: 0 <= i < |where| ==> Placeholder(where[i].key) in params)
  {
    BindKeys(map[], fields);
    BindKeys(Bind(map[], fields), where);
    forall i | 0 <= i < |fields| ensures Placeholder(fields[i].key) in BoundPlaceholders(fields) {
    }
    forall i | 0 <= i < |where| ensures Placeholder(where[i].key) in BoundPlaceholders(where) {
    }
  }

  /** As written, `delete` without a connection ends in a call on null,
      whatever the arguments. */
  lemma DeleteWithoutConnectionIsFatal<V>(table: string, where: seq<Entry<V>>)
    ensures Delete(false, table, where) == Fatal
  {
  }
}

=== FILE: form.dfy ===
/** The HTML form helpers of Helpers/Form.php: `open`, `input`, `close` and
    the field-building half of `csrf_token`. Each builder is modelled as the
    list of attributes it decides to emit, rendered in the helpers' fixed
    ` key="value"` form; the properties are stated on what a reader of the
    emitted text gets back. */
module Form {
  import opened Wrappers
  import Strings
  import opened Html

  // -----------------------------------------------------------------------
  // open
  // -----------------------------------------------------------------------

  /** Attribute order of the opening form tag. */
  const OpenOrder: seq<string> := ["method", "action", "name"]

  /** The method `open` emits and saves: upper-cased, kept empty when empty,
      and coerced to GET when it is anything but POST. */
  function OpenMethod(httpMethod: string): (m: string)
    ensures m == "" || m == "GET" || m == "POST"
    ensures m == "" <==> httpMethod == ""
    ensures m == "POST" <==> Strings.EqualsIgnoringCase(httpMethod, "POST")
  {
    var upper := Strings.Upper(httpMethod);
    Strings.UpperEqualsIffIgnoringCase(httpMethod, "POST");
    if upper != "" && upper != "POST" then "GET" else upper
  }

  /** The values `open` considers for method, action and name. */
  function OpenValues(httpMethod: string, action: string, name: string): seq<string>
  {
    [OpenMethod(httpMethod), action, name]
  }

  /** The attributes of the opening tag: each of method, action and name
      exactly when it is non-empty, in that order. */
  function OpenAttrs(httpMethod: string, action: string, name: string): (attrs: seq<Attr>)
    ensures OrderedBy(attrs, OpenOrder)
  {
    var candidates := Zip(OpenOrder, OpenValues(httpMethod, action, name));
    ZipOrdered(OpenOrder, OpenValues(httpMethod, action, name));
    PresentKeepsOrder(candidates, OpenOrder);
    Present(candidates)
  }

  /** `open`: a `<form ...>` tag that reads back as exactly the attributes
      `OpenAttrs` chose, whenever action and name contain no '"'. */
  function Open(httpMethod: string, action: string, name: string): (r: string)
    ensures '"' !in action && '"' !in name ==> ParseTag(r, "form") == Some(OpenAttrs(httpMethod, action, name))
  {
    OpenTagParses(httpMethod, action, name);
    Tag("form", OpenAttrs(httpMethod, action, name))
  }

  /** An opening tag `<name key="value" ...>` and the line break the helpers add. */
  function Tag(name: string, attrs: seq<Attr>): string
  {
    "<" + name + AttrsText(attrs) + ">\n"
  }

  /** Reads `<tag ...attributes...>\n` back into its attribute list. */
  function ParseTag(s: string, tag: string): Option<seq<Attr>>
  {
    if |s| >= |tag| + 3 && s[..|tag| + 1] == "<" + tag && s[|s| - 2..] == ">\n" then
      ParseAttrs(s[|tag| + 1..|s| - 2])
    else
      None
  }

  /** An opening tag reads back as the attributes it was written from. */
  lemma ParseTagOf(name: string, attrs: seq<Attr>)
    requires forall i :: 0 <= i < |attrs| ==> Readable(attrs[i])
    ensures ParseTag(Tag(name, attrs), name) == Some(attrs)
  {
    Strings.Seams("<" + name, AttrsText(attrs), ">\n");
    AttrsRoundTrip(attrs);
  }

  /** The value `open` emits for each of its attributes: absent when empty. */
  function OpenValue(httpMethod: string, action: string, name: string, key: string): string
  {
    if key == "method" then OpenMethod(httpMethod) else if key == "action" then action else name
  }

  /** `open`'s attributes carry their values when non-empty and are absent
      otherwise. */
  lemma OpenAttrValue(httpMethod: string, action: string, name: string, key: string)
    requires key in OpenOrder
    ensures ValueOf(OpenAttrs(httpMethod, action, name), key) == NonEmpty(OpenValue(httpMethod, action, name, key))
  {
    var j := if key == "method" then 0 else if key == "action" then 1 else 2;
    assert OpenOrder[j] == key;
    ZipValueOf(OpenOrder, OpenValues(httpMethod, action, name), j);
  }

  lemma OpenAttrsReadable(httpMethod: string, action: string, name: string)
    requires '"' !in action && '"' !in name
    ensures forall i :: 0 <= i < |OpenAttrs(httpMethod, action, name)| ==> Readable(OpenAttrs(httpMethod, action, name)[i])
  {
    var vals := OpenValues(httpMethod, action, name);
    var candidates := Zip(OpenOrder, vals);
    forall i | 0 <= i < |candidates| ensures Readable(candidates[i]) {
      assert '=' !in OpenOrder[i] && '"' !in vals[i];
    }
    PresentReadable(candidates);
  }

  lemma OpenTagParses(httpMethod: string, action: string, name: string)
    ensures '"' !in action && '"' !in name ==>
              ParseTag(Tag("form", OpenAttrs(httpMethod, action, name)), "form") == Some(OpenAttrs(httpMethod, action, name))
  {
    if '"' !in action && '"' !in name {
      OpenAttrsReadable(httpMethod, action, name);
      ParseTagOf("form", OpenAttrs(httpMethod, action, name));
    }
  }

  /** The opening tag reads back as exactly the non-empty ones of method,
      action and name, in that order; an empty method stays absent rather
      than defaulting to GET. */
  lemma OpenReadsBack(httpMethod: string, action: string, name: string, key: string)
    requires '"' !in action && '"' !in name
    requires key in OpenOrder
    ensures ParseTag(Open(httpMethod, action, name), "form").Some?
    ensures var attrs := ParseTag(Open(httpMethod, action, name), "form").value;
            && OrderedBy(attrs, OpenOrder)
            && ValueOf(attrs, key) == NonEmpty(OpenValue(httpMethod, action, name, key))
  {
    OpenAttrValue(httpMethod, action, name, key);
  }

  // -----------------------------------------------------------------------
  // input
  // -----------------------------------------------------------------------

  /** Attribute order of the input tag. */
  const InputOrder: seq<string> := ["type", "name", "id", "class", "style", "value"]

  /** The seven option keys `input` looks at; any other key is ignored. */
  const Recognised: set<string> := {"type", "name", "id", "value", "class", "style", "label"}

  /** An option's value, or "" when the key is absent. */
  function OptionOf(options: map<string, string>, key: string): string
  {
    if key in options then options[key] else ""
  }

  /** The label's `for` target: present only when there is label text and an
      id or a name; the id when there is one, else the name. */
  function LabelTarget(options: map<string, string>): Option<string>
  {
    var id := OptionOf(options, "id");
    var name := OptionOf(options, "name");
    if OptionOf(options, "label") != "" && (id != "" || name != "") then
      Some(if id != "" then id else name)
    else
      None
  }

  /** The input's id: the id option, or the name when a label is wanted and
      no id is given. */
  function InputId(options: map<string, string>): string
  {
    var id := OptionOf(options, "id");
    if id != "" then id
    else if OptionOf(options, "label") != "" && OptionOf(options, "name") != "" then OptionOf(options, "name")
    else ""
  }

  /** The values `input` considers for type, name, id, class, style and value. */
  function InputValues(options: map<string, string>): seq<string>
  {
    [OptionOf(options, "type"), OptionOf(options, "name"), InputId(options),
     OptionOf(options, "class"), OptionOf(options, "style"), OptionOf(options, "value")]
  }

  /** The attributes of the input tag: each of type, name, id, class, style
      and value exactly when non-empty, in that order. */
  function InputAttrs(options: map<string, string>): (attrs: seq<Attr>)
    ensures OrderedBy(attrs, InputOrder)
  {
    var candidates := Zip(InputOrder, InputValues(options));
    ZipOrdered(InputOrder, InputValues(options));
    PresentKeepsOrder(candidates, InputOrder);
    Present(candidates)
  }

  const LabelOpen: string := "<label for=\""

  function LabelText(options: map<string, string>): string
  {
    match LabelTarget(options)
    case None => ""
    case Some(target) => LabelOpen + target + "\">" + OptionOf(options, "label") + "</label>"
  }

  function InputTag(options: map<string, string>): string
  {
    Tag("input", InputAttrs(options))
  }

  /** `input`: an optional label, then the input tag. Whenever the options are
      readable, the output reads back as the label `LabelTarget` decides on,
      with the label option as its text, followed by exactly the attributes
      `InputAttrs` chose. */
  function Input(options: map<string, string>): (r: string)
    ensures InputReadable(options) ==> ParseInput(r) == Some(InputParts(LabelPartOf(options), InputAttrs(options)))
  {
    InputTextParses(options);
    LabelText(options) + InputTag(options)
  }

  /** What a reader of `input`'s output sees: an optional label and the
      input tag's attributes. */
  datatype LabelPart = LabelPart(target: string, text: string)
  datatype InputParts = InputParts(labelPart: Option<LabelPart>, attrs: seq<Attr>)

  /** The label `input` decides on: its target and the label option as text. */
  function LabelPartOf(options: map<string, string>): Option<LabelPart>
  {
    match LabelTarget(options)
    case None => None
    case Some(t) => Some(LabelPart(t, OptionOf(options, "label")))
  }

  /** Reads an optional `<label for="...">text</label>` and then the input tag. */
  function ParseInput(s: string): Option<InputParts>
  {
    if |s| >= |LabelOpen| && s[..|LabelOpen|] == LabelOpen then
      ParseLabelFor(s[|LabelOpen|..])
    else
      match ParseTag(s, "input")
      case None => None
      case Some(attrs) => Some(InputParts(None, attrs))
  }

  /** After `<label for="`: the target runs up to the first '"', then `">`. */
  function ParseLabelFor(rest: string): Option<InputParts>
  {
    var q := Strings.IndexOf(rest, '"');
    if q + 2 > |rest| || rest[q..q + 2] != "\">" then None
    else ParseLabelBody(rest[..q], rest[q + 2..])
  }

  /** The label text runs up to the first '<', then `</label>` and the input tag. */
  function ParseLabelBody(target: string, body: string): Option<InputParts>
  {
    var lt := Strings.IndexOf(body, '<');
    var after := body[lt..];
    if |after| < 8 || after[..8] != "</label>" then None
    else
      match ParseTag(after[8..], "input")
      case None => None
      case Some(attrs) => Some(InputParts(Some(LabelPart(target, body[..lt])), attrs))
  }

  /** Option values the reader can take back: no '"' inside an attribute
      value and no '<' inside the label text. */
  predicate InputReadable(options: map<string, string>)
  {
    && (forall i :: 0 <= i < |InputOrder| ==> '"' !in OptionOf(options, InputOrder[i]))
    && '<' !in OptionOf(options, "label")
  }

  lemma InputAttrsReadable(options: map<string, string>)
    requires InputReadable(options)
    ensures forall i :: 0 <= i < |InputAttrs(options)| ==> Readable(InputAttrs(options)[i])
  {
    var vals := InputValues(options);
    var candidates := Zip(InputOrder, vals);
    forall i | 0 <= i < |candidates| ensures Readable(candidates[i]) {
      assert '=' !in InputOrder[i];
      assert '"' !in vals[i] by {
        assert '"' !in OptionOf(options, InputOrder[1]);
        assert '"' !in OptionOf(options, InputOrder[i]);
      }
    }
    PresentReadable(candidates);
  }

  /** The value `input` considers for each attribute it may emit. */
  function InputValue(options: map<string, string>, key: string): string
  {
    if key == "id" then InputId(options) else OptionOf(options, key)
  }

  /** Each of the six attributes carries its option's value when that is
      non-empty and is absent otherwise (the id falls back to the name when a
      label is wanted). */
  lemma InputAttrValue(options: map<string, string>, key: string)
    requires key in InputOrder
    ensures ValueOf(InputAttrs(options), key) == NonEmpty(InputValue(options, key))
  {
    var j := if key == "type" then 0 else if key == "name" then 1 else if key == "id" then 2
             else if key == "class" then 3 else if key == "style" then 4 else 5;
    assert InputOrder[j] == key;
    assert InputValues(options)[j] == InputValue(options, key);
    ZipValueOf(InputOrder, InputValues(options), j);
  }

  lemma InputTagReadsBack(options: map<string, string>)
    requires InputReadable(options)
    ensures ParseTag(InputTag(options), "input") == Some(InputAttrs(options))
  {
    var attrs := InputAttrs(options);
    InputAttrsReadable(options);
    ParseTagOf("input", attrs);
  }

  /** Without a label, the reader goes straight to the input tag. */
  lemma ParseUnlabelled(tag: string, attrs: seq<Attr>)
    requires ParseTag(tag, "input") == Some(attrs)
    ensures ParseInput(tag) == Some(InputParts(None, attrs))
  {
    assert tag[..6] == "<" + "input";
    assert tag[1] == 'i' && LabelOpen[1] == 'l';
  }

  lemma ParseLabelBodyOf(target: string, text: string, tag: string, attrs: seq<Attr>)
    requires '<' !in text
    requires ParseTag(tag, "input") == Some(attrs)
    ensures ParseLabelBody(target, text + ("</label>" + tag)) == Some(InputParts(Some(LabelPart(target, text)), attrs))
  {
    var body := text + ("</label>" + tag);
    Strings.IndexOfAfter(text, "</label>" + tag, '<');
    var after := body[|text|..];
    assert after == "</label>" + tag;
    assert after[..8] == "</label>";
    assert after[8..] == tag;
    assert body[..|text|] == text;
  }

  lemma ParseLabelForOf(target: string, text: string, tag: string, attrs: seq<Attr>)
    requires '"' !in target && '<' !in text
    requires ParseTag(tag, "input") == Some(attrs)
    ensures ParseLabelFor(target + ("\">" + (text + ("</label>" + tag))))
         == Some(InputParts(Some(LabelPart(target, text)), attrs))
  {
    var body := text + ("</label>" + tag);
    var rest := target + ("\">" + body);
    Strings.IndexOfAfter(target, "\">" + body, '"');
    var q := |target|;
    assert rest[q..q + 2] == "\">";
    assert rest[..q] == target;
    assert rest[q + 2..] == body;
    ParseLabelBodyOf(target, text, tag, attrs);
  }

  /** With a label, the reader takes the `for` target up to the first '"' and
      the text up to the first '<', then reads the input tag. */
  lemma ParseLabelled(target: string, text: string, tag: string, attrs: seq<Attr>)
    requires '"' !in target && '<' !in text
    requires ParseTag(tag, "input") == Some(attrs)
    ensures ParseInput(LabelOpen + target + "\">" + text + "</label>" + tag)
         == Some(InputParts(Some(LabelPart(target, text)), attrs))
  {
    var rest := target + ("\">" + (text + ("</label>" + tag)));
    var s := LabelOpen + target + "\">" + text + "</label>" + tag;
    assert s == LabelOpen + rest;
    assert s[..|LabelOpen|] == LabelOpen;
    assert s[|LabelOpen|..] == rest;
    ParseLabelForOf(target, text, tag, attrs);
  }

  lemma InputTextParses(options: map<string, string>)
    ensures InputReadable(options) ==>
              ParseInput(LabelText(options) + InputTag(options)) == Some(InputParts(LabelPartOf(options), InputAttrs(options)))
  {
    if InputReadable(options) {
      InputTagReadsBack(options);
      if LabelTarget(options).None? {
        assert LabelText(options) + InputTag(options) == InputTag(options);
        ParseUnlabelled(InputTag(options), InputAttrs(options));
      } else {
        LabelledInputParses(options, LabelTarget(options).value);
      }
    }
  }

  lemma LabelledInputParses(options: map<string, string>, target: string)
    requires InputReadable(options) && LabelTarget(options) == Some(target)
    requires ParseTag(InputTag(options), "input") == Some(InputAttrs(options))
    ensures ParseInput(LabelText(options) + InputTag(options))
         == Some(InputParts(Some(LabelPart(target, OptionOf(options, "label"))), InputAttrs(options)))
  {
    var text := OptionOf(options, "label");
    assert LabelText(options) == LabelOpen + target + "\">" + text + "</label>";
    assert '"' !in OptionOf(options, InputOrder[1]) && '"' !in OptionOf(options, InputOrder[2]);
    ParseLabelled(target, text, InputTag(options), InputAttrs(options));
  }

  /** The label always points at the input: whenever a label is emitted, the
      input tag carries an `id` equal to the label's `for` (the name stands in
      as id when no id is given), both in the attributes chosen and in what a
      reader of the output gets back. */
  lemma LabelPointsAtInput(options: map<string, string>)
    ensures LabelTarget(options).Some? ==>
              LabelTarget(options).value != "" && ValueOf(InputAttrs(options), "id") == LabelTarget(options)
    ensures InputReadable(options) ==>
              && ParseInput(Input(options)).Some?
              && (ParseInput(Input(options)).value.labelPart.Some? ==>
                    var target := ParseInput(Input(options)).value.labelPart.value.target;
                    target != "" && ValueOf(ParseInput(Input(options)).value.attrs, "id") == Some(target))
  {
    InputAttrValue(options, "id");
  }

  /** A label is emitted exactly when there is label text and an id or a name;
      its `for` is the id when there is one and otherwise the name. This holds
      of the emitted text for every option map, and of what a reader gets
      back whenever the options are readable. */
  lemma LabelRule(options: map<string, string>)
    ensures (|Input(options)| >= |LabelOpen| && Input(options)[..|LabelOpen|] == LabelOpen)
        <==> OptionOf(options, "label") != ""
             && (OptionOf(options, "id") != "" || OptionOf(options, "name") != "")
    ensures LabelTarget(options).Some? ==>
              var t := if OptionOf(options, "id") != "" then OptionOf(options, "id") else OptionOf(options, "name");
              && |Input(options)| >= |LabelOpen| + |t| + 2
              && Input(options)[..|LabelOpen| + |t| + 2] == LabelOpen + t + "\">"
    ensures InputReadable(options) ==>
              && ParseInput(Input(options)).Some?
              && (ParseInput(Input(options)).value.labelPart.Some?
                  <==> OptionOf(options, "label") != ""
                       && (OptionOf(options, "id") != "" || OptionOf(options, "name") != ""))
              && (ParseInput(Input(options)).value.labelPart.Some? ==>
                    ParseInput(Input(options)).value.labelPart.value.target
                    == (if OptionOf(options, "id") != "" then OptionOf(options, "id") else OptionOf(options, "name")))
  {
    LabelTextRule(options);
    var r := Input(options);
    assert r == LabelText(options) + InputTag(options);
  }

  /** The emitted text starts with `<label for="target">` exactly when a label
      target is chosen. */
  lemma LabelTextRule(options: map<string, string>)
    ensures var s := LabelText(options) + InputTag(options);
            (|s| >= |LabelOpen| && s[..|LabelOpen|] == LabelOpen) <==> LabelTarget(options).Some?
    ensures LabelTarget(options).Some? ==>
              var s := LabelText(options) + InputTag(options);
              var t := LabelTarget(options).value;
              |s| >= |LabelOpen| + |t| + 2 && s[..|LabelOpen| + |t| + 2] == LabelOpen + t + "\">"
  {
    var tag := InputTag(options);
    if LabelTarget(options).None? {
      assert LabelText(options) == "";
      assert LabelText(options) + tag == tag;
      UnlabelledPrefix(InputAttrs(options));
    } else {
      var t := LabelTarget(options).value;
      var text := OptionOf(options, "label");
      assert LabelText(options) == LabelOpen + t + "\">" + text + "</label>";
      LabelledPrefix(t, text, tag);
    }
  }

  /** An input tag does not start like a label. */
  lemma UnlabelledPrefix(attrs: seq<Attr>)
    ensures !(|Tag("input", attrs)| >= |LabelOpen| && Tag("input", attrs)[..|LabelOpen|] == LabelOpen)
  {
    var tag := Tag("input", attrs);
    assert tag == "<input" + (AttrsText(attrs) + ">\n");
    assert tag[1] == 'i' && LabelOpen[1] == 'l';
  }

  /** A label starts with `<label for="target">`. */
  lemma LabelledPrefix(t: string, text: string, tag: string)
    ensures var s := LabelOpen + t + "\">" + text + "</label>" + tag;
            && |s| >= |LabelOpen| + |t| + 2
            && s[..|LabelOpen|] == LabelOpen
            && s[..|LabelOpen| + |t| + 2] == LabelOpen + t + "\">"
  {
    var s := LabelOpen + t + "\">" + text + "</label>" + tag;
    assert s == (LabelOpen + t + "\">") + (text + "</label>" + tag);
    assert s[..|LabelOpen|] == (LabelOpen + t + "\">")[..|LabelOpen|];
  }

  /** Only the seven recognised keys matter: options that agree on them give
      the same output. */
  lemma InputIgnoresOtherKeys(o1: map<string, string>, o2: map<string, string>)
    requires forall k :: k in Recognised ==> OptionOf(o1, k) == OptionOf(o2, k)
    ensures Input(o1) == Input(o2)
  {
    assert "type" in Recognised && "name" in Recognised && "id" in Recognised && "value" in Recognised;
    assert "class" in Recognised && "style" in Recognised && "label" in Recognised;
  }

  // -----------------------------------------------------------------------
  // csrf_token and close
  // -----------------------------------------------------------------------

  /** Result of `csrf_token`: its output and the cookie it sets, if any. */
  datatype CsrfOutcome = CsrfOutcome(output: string, setCookie: Option<string>)

  /** The options of the hidden token field. */
  function CsrfFieldOptions(token: string): map<string, string>
  {
    map["type" := "hidden", "name" := "csrf_token", "value" := token]
  }

  /** `csrf_token`: the cookie's token when the cookie is set, otherwise the
      freshly generated one, which is then set as the cookie; either the bare
      token or a hidden input carrying it. The clock-derived hash is the
      parameter `generated`. */
  function CsrfToken(cookie: Option<string>, generated: string, tokenOnly: bool): (r: CsrfOutcome)
    ensures r.setCookie.Some? <==> cookie.None?
    ensures r.setCookie.Some? ==> r.setCookie.value == generated
    ensures tokenOnly ==> r.output == (if cookie.Some? then cookie.value else generated)
  {
    var token := cookie.GetOr(generated);
    CsrfOutcome(if tokenOnly then token else Input(CsrfFieldOptions(token)),
                if cookie.None? then Some(generated) else None)
  }

  /** The field form of the token is an unlabelled hidden input named
      csrf_token whose value is the token that the token-only form returns;
      it carries no id, class or style, whatever the token. When the token
      contains no '"', a reader of the field gets exactly that back. Both
      forms set the cookie exactly when none was sent, and then to the token
      they emit. */
  lemma CsrfFieldCarriesToken(cookie: Option<string>, generated: string, key: string)
    requires key in InputOrder
    ensures var token := CsrfToken(cookie, generated, true).output;
            && token == (if cookie.Some? then cookie.value else generated)
            && (cookie.None? ==> CsrfToken(cookie, generated, false).setCookie == Some(token))
            && (cookie.None? ==> CsrfToken(cookie, generated, true).setCookie == Some(token))
            && (cookie.Some? ==> CsrfToken(cookie, generated, false).setCookie == None)
            && (cookie.Some? ==> CsrfToken(cookie, generated, true).setCookie == None)
    ensures var token := CsrfToken(cookie, generated, true).output;
            && LabelTarget(CsrfFieldOptions(token)) == None
            && CsrfToken(cookie, generated, false).output == Tag("input", InputAttrs(CsrfFieldOptions(token)))
            && ValueOf(InputAttrs(CsrfFieldOptions(token)), key) == CsrfFieldValue(token, key)
    ensures var token := CsrfToken(cookie, generated, true).output;
            '"' !in token ==>
              && ParseInput(CsrfToken(cookie, generated, false).output).Some?
              && ParseInput(CsrfToken(cookie, generated, false).output).value.labelPart.None?
              && ValueOf(ParseInput(CsrfToken(cookie, generated, false).output).value.attrs, key)
                 == CsrfFieldValue(token, key)
  {
    var token := cookie.GetOr(generated);
    CsrfFieldAttrs(token, key);
    if '"' !in token {
      CsrfFieldParses(token);
    }
  }

  /** The value the token field gives each of the six input attributes. */
  function CsrfFieldValue(token: string, key: string): Option<string>
  {
    if key == "type" then Some("hidden")
    else if key == "name" then Some("csrf_token")
    else if key == "value" then NonEmpty(token)
    else None
  }

  lemma CsrfFieldAttrs(token: string, key: string)
    requires key in InputOrder
    ensures LabelTarget(CsrfFieldOptions(token)) == None
    ensures Input(CsrfFieldOptions(token)) == Tag("input", InputAttrs(CsrfFieldOptions(token)))
    ensures ValueOf(InputAttrs(CsrfFieldOptions(token)), key) == CsrfFieldValue(token, key)
  {
    var o := CsrfFieldOptions(token);
    assert OptionOf(o, "label") == "" && OptionOf(o, "id") == "";
    assert OptionOf(o, "class") == "" && OptionOf(o, "style") == "";
    assert OptionOf(o, "type") == "hidden" && OptionOf(o, "name") == "csrf_token";
    assert OptionOf(o, "value") == token;
    assert LabelText(o) == "";
    InputAttrValue(o, key);
  }

  lemma CsrfFieldParses(token: string)
    requires '"' !in token
    ensures ParseInput(Input(CsrfFieldOptions(token))) == Some(InputParts(None, InputAttrs(CsrfFieldOptions(token))))
  {
    var o := CsrfFieldOptions(token);
    assert OptionOf(o, "label") == "" && OptionOf(o, "id") == "";
    assert OptionOf(o, "class") == "" && OptionOf(o, "style") == "";
    assert OptionOf(o, "type") == "hidden" && OptionOf(o, "name") == "csrf_token";
    assert OptionOf(o, "value") == token;
    assert LabelPartOf(o) == None;
    assert InputReadable(o);
  }

  /** The closing tag of an element named `tag`. */
  function ClosingTag(tag: string): string
  {
    "</" + tag + ">\n"
  }

  /** `close`: the closing tag of the `form` element that `open` starts. */
  function Close(): (r: string)
    ensures r == ClosingTag("form")
  {
    "</form>\n"
  }
}

=== FILE: html.dfy ===
/** Attribute lists as the form helpers write them, ` key="value"` one after
    another, and a parser that reads such a list back. The parser is the
    inverse the form builders' properties are stated against: whatever a
    builder emits, reading it back yields exactly the attributes it meant. */
module Html {
  import opened Wrappers
  import Strings

  datatype Attr = Attr(key: string, val: string)

  /** One attribute as the helpers concatenate it: ` key="value"`. */
  function AttrText(a: Attr): string
  {
    " " + a.key + "=\"" + a.val + "\""
  }

  function AttrsText(attrs: seq<Attr>): string
  {
    if |attrs| == 0 then "" else AttrText(attrs[0]) + AttrsText(attrs[1..])
  }

  /** The helpers' "emit only if non-empty" rule applied to a candidate list. */
  function Present(attrs: seq<Attr>): (r: seq<Attr>)
    ensures forall a :: a in r <==> a in attrs && a.val != ""
  {
    if |attrs| == 0 then []
    else (if attrs[0].val != "" then [attrs[0]] else []) + Present(attrs[1..])
  }

  /** The keys of `attrs` appear in the order of `order`, each at most once. */
  predicate OrderedBy(attrs: seq<Attr>, order: seq<string>)
  {
    && (forall i :: 0 <= i < |attrs| ==> attrs[i].key in order)
    && (forall i, j :: 0 <= i < j < |attrs| ==> Rank(attrs[i].key, order) < Rank(attrs[j].key, order))
  }

  /** Position of `k` in `order`. */
  function Rank(k: string, order: seq<string>): nat
  {
    if |order| == 0 || order[0] == k then 0 else 1 + Rank(k, order[1..])
  }

  lemma OrderedTail(attrs: seq<Attr>, order: seq<string>)
    requires |attrs| > 0 && OrderedBy(attrs, order)
    ensures OrderedBy(attrs[1..], order)
  {
    var t := attrs[1..];
    forall i | 0 <= i < |t| ensures t[i].key in order {
      assert t[i] == attrs[i + 1];
    }
    forall i, j | 0 <= i < j < |t| ensures Rank(t[i].key, order) < Rank(t[j].key, order) {
      assert t[i] == attrs[i + 1] && t[j] == attrs[j + 1];
    }
  }

  lemma OrderedCons(a: Attr, rest: seq<Attr>, order: seq<string>)
    requires a.key in order && OrderedBy(rest, order)
    requires forall x :: x in rest ==> x.key in order && Rank(a.key, order) < Rank(x.key, order)
    ensures OrderedBy([a] + rest, order)
  {
    var r := [a] + rest;
    forall i | 0 <= i < |r| ensures r[i].key in order {
      if i > 0 {
        assert r[i] == rest[i - 1];
      }
    }
    forall i, j | 0 <= i < j < |r| ensures Rank(r[i].key, order) < Rank(r[j].key, order) {
      assert r[j] == rest[j - 1];
      if i > 0 {
        assert r[i] == rest[i - 1];
      }
    }
  }

  /** Dropping attributes keeps the remaining ones in their relative order. */
  lemma {:induction false} PresentKeepsOrder(attrs: seq<Attr>, order: seq<string>)
    requires OrderedBy(attrs, order)
    ensures OrderedBy(Present(attrs), order)
  {
    if |attrs| > 0 {
      OrderedTail(attrs, order);
      PresentKeepsOrder(attrs[1..], order);
      var rest := Present(attrs[1..]);
      if attrs[0].val != "" {
        forall x | x in rest
          ensures x.key in order && Rank(attrs[0].key, order) < Rank(x.key, order)
        {
          var k :| 0 <= k < |attrs[1..]| && attrs[1..][k] == x;
          assert attrs[k + 1] == x;
        }
        OrderedCons(attrs[0], rest, order);
      }
    }
  }

  predicate DistinctKeys(attrs: seq<Attr>)
  {
    forall i, j :: 0 <= i < j < |attrs| ==> attrs[i].key != attrs[j].key
  }

  /** The value of the first attribute named `key`, if any. */
  function ValueOf(attrs: seq<Attr>, key: string): Option<string>
  {
    if |attrs| == 0 then None
    else if attrs[0].key == key then Some(attrs[0].val)
    else ValueOf(attrs[1..], key)
  }

  /** The first attribute named `key` sits at index `i`. */
  lemma {:induction false} ValueOfAt(attrs: seq<Attr>, i: nat, key: string)
    requires i < |attrs| && attrs[i].key == key
    requires forall j :: 0 <= j < i ==> attrs[j].key != key
    ensures ValueOf(attrs, key) == Some(attrs[i].val)
    decreases i
  {
    if i > 0 {
      ValueOfAt(attrs[1..], i - 1, key);
    }
  }

  /** A value as the helpers emit it: absent when empty. */
  function NonEmpty(v: string): Option<string>
  {
    if v == "" then None else Some(v)
  }

  /** After dropping the empty attributes, a key carries its original value
      when that was non-empty and is absent otherwise. */
  lemma {:induction false} PresentValueOf(attrs: seq<Attr>, key: string)
    requires DistinctKeys(attrs)
    ensures ValueOf(Present(attrs), key) == match ValueOf(attrs, key)
                                           case None => None
                                           case Some(v) => NonEmpty(v)
  {
    if |attrs| > 0 {
      var tail := attrs[1..];
      assert DistinctKeys(tail) by {
        forall i, j | 0 <= i < j < |tail| ensures tail[i].key != tail[j].key {
          assert tail[i] == attrs[i + 1] && tail[j] == attrs[j + 1];
        }
      }
      PresentValueOf(tail, key);
      if attrs[0].key == key {
        assert ValueOf(tail, key) == None by {
          AbsentKey(tail, key);
        }
        if attrs[0].val == "" {
          assert Present(attrs) == Present(tail);
        }
      } else if attrs[0].val != "" {
        assert Present(attrs) == [attrs[0]] + Present(tail);
        assert ([attrs[0]] + Present(tail))[1..] == Present(tail);
      } else {
        assert Present(attrs) == Present(tail);
      }
    }
  }

  lemma {:induction false} AbsentKey(attrs: seq<Attr>, key: string)
    requires forall i :: 0 <= i < |attrs| ==> attrs[i].key != key
    ensures ValueOf(attrs, key) == None
  {
    if |attrs| > 0 {
      AbsentKey(attrs[1..], key);
    }
  }

  // -----------------------------------------------------------------------
  // Candidate lists: a fixed key order paired with computed values
  // -----------------------------------------------------------------------

  predicate Distinct(xs: seq<string>)
  {
    forall i, j :: 0 <= i < j < |xs| ==> xs[i] != xs[j]
  }

  /** `keys[i]` paired with `vals[i]`, in order. */
  function Zip(keys: seq<string>, vals: seq<string>): (attrs: seq<Attr>)
    requires |keys| == |vals|
    ensures |attrs| == |keys|
    ensures forall i :: 0 <= i < |keys| ==> attrs[i] == Attr(keys[i], vals[i])
  {
    seq(|keys|, i requires 0 <= i < |keys| => Attr(keys[i], vals[i]))
  }

  /** In a list without repetitions, the rank of the i-th element is i. */
  lemma {:induction false} RankOf(order: seq<string>, i: nat)
    requires Distinct(order) && i < |order|
    ensures Rank(order[i], order) == i
    decreases i
  {
    if i > 0 {
      var tail := order[1..];
      assert tail[i - 1] == order[i];
      assert Distinct(tail) by {
        forall a, b | 0 <= a < b < |tail| ensures tail[a] != tail[b] {
          assert tail[a] == order[a + 1] && tail[b] == order[b + 1];
        }
      }
      RankOf(tail, i - 1);
    }
  }

  lemma ZipOrdered(order: seq<string>, vals: seq<string>)
    requires Distinct(order) && |vals| == |order|
    ensures OrderedBy(Zip(order, vals), order)
  {
    var attrs := Zip(order, vals);
    forall i, j | 0 <= i < j < |attrs| ensures Rank(attrs[i].key, order) < Rank(attrs[j].key, order) {
      RankOf(order, i);
      RankOf(order, j);
    }
  }

  /** After dropping the empty candidates, the j-th key carries the j-th
      value when that is non-empty and is absent otherwise. */
  lemma ZipValueOf(order: seq<string>, vals: seq<string>, j: nat)
    requires Distinct(order) && |vals| == |order| && j < |order|
    ensures ValueOf(Present(Zip(order, vals)), order[j]) == NonEmpty(vals[j])
  {
    var attrs := Zip(order, vals);
    ValueOfAt(attrs, j, order[j]);
    PresentValueOf(attrs, order[j]);
  }

  /** Dropping attributes keeps them readable. */
  lemma PresentReadable(attrs: seq<Attr>)
    requires forall i :: 0 <= i < |attrs| ==> Readable(attrs[i])
    ensures forall i :: 0 <= i < |Present(attrs)| ==> Readable(Present(attrs)[i])
  {
    var r := Present(attrs);
    forall i | 0 <= i < |r| ensures Readable(r[i]) {
      assert r[i] in attrs;
    }
  }

  // -----------------------------------------------------------------------
  // Reading an attribute list back
  // -----------------------------------------------------------------------

  /** An attribute the parser can read back: '=' ends the key and '"' ends
      the value, so neither may occur inside. */
  predicate Readable(a: Attr)
  {
    '=' !in a.key && '"' !in a.val
  }

  /** Reads ` key="value"` repeatedly until the text is used up. */
  function ParseAttrs(s: string): Option<seq<Attr>>
    decreases |s|
  {
    if |s| == 0 then Some([])
    else if s[0] != ' ' then None
    else ParseKey(s[1..])
  }

  /** The key runs up to the first '=', which must be followed by '"'. */
  function ParseKey(rest: string): Option<seq<Attr>>
    decreases |rest|
  {
    var eq := Strings.IndexOf(rest, '=');
    if eq + 1 >= |rest| || rest[eq + 1] != '"' then None
    else ParseValue(rest[..eq], rest[eq + 2..])
  }

  /** The value runs up to the next '"'; the remaining attributes follow. */
  function ParseValue(key: string, afterOpen: string): Option<seq<Attr>>
    decreases |afterOpen|
  {
    var close := Strings.IndexOf(afterOpen, '"');
    if close >= |afterOpen| then None
    else
      match ParseAttrs(afterOpen[close + 1..])
      case None => None
      case Some(more) => Some([Attr(key, afterOpen[..close])] + more)
  }

  lemma ParseValueOf(a: Attr, tail: string)
    requires '"' !in a.val
    ensures ParseValue(a.key, a.val + ("\"" + tail)) == match ParseAttrs(tail)
                                                       case None => None
                                                       case Some(more) => Some([a] + more)
  {
    var afterOpen := a.val + ("\"" + tail);
    Strings.IndexOfAfter(a.val, "\"" + tail, '"');
    assert afterOpen[|a.val| + 1..] == tail;
    assert afterOpen[..|a.val|] == a.val;
  }

  lemma ParseKeyOf(a: Attr, tail: string)
    requires '=' !in a.key
    ensures ParseKey(a.key + ("=\"" + (a.val + ("\"" + tail)))) == ParseValue(a.key, a.val + ("\"" + tail))
  {
    var rest := a.key + ("=\"" + (a.val + ("\"" + tail)));
    Strings.IndexOfAfter(a.key, "=\"" + (a.val + ("\"" + tail)), '=');
    var eq := |a.key|;
    assert rest[eq + 1] == '"';
    assert rest[..eq] == a.key;
    assert rest[eq + 2..] == a.val + ("\"" + tail);
  }

  lemma ParseOneAttr(a: Attr, tail: string)
    requires Readable(a)
    ensures ParseAttrs(AttrText(a) + tail) == match ParseAttrs(tail)
                                             case None => None
                                             case Some(more) => Some([a] + more)
  {
    var rest := a.key + ("=\"" + (a.val + ("\"" + tail)));
    assert AttrText(a) + tail == " " + rest;
    assert (" " + rest)[1..] == rest;
    ParseKeyOf(a, tail);
    ParseValueOf(a, tail);
  }

  /** Rendering and then reading back gives the same attribute list. */
  lemma {:induction false} AttrsRoundTrip(attrs: seq<Attr>)
    requires forall i :: 0 <= i < |attrs| ==> Readable(attrs[i])
    ensures ParseAttrs(AttrsText(attrs)) == Some(attrs)
  {
    if |attrs| > 0 {
      var tail := attrs[1..];
      assert forall i :: 0 <= i < |tail| ==> Readable(tail[i]) by {
        forall i | 0 <= i < |tail| ensures Readable(tail[i]) {
          assert tail[i] == attrs[i + 1];
        }
      }
      AttrsRoundTrip(tail);
      assert AttrsText(attrs) == AttrText(attrs[0]) + AttrsText(tail);
      ParseOneAttr(attrs[0], AttrsText(tail));
      assert [attrs[0]] + tail == attrs;
    }
  }
}

=== FILE: router.dfy ===
/** The route registry of Router.php: a two-level table from request method
    to request URI to handler. `register` is a state transition on the table;
    `route` is an exact two-key lookup with the request's method and URI,
    which the model takes as parameters instead of reading `$_SERVER`. */
module Router {
  import opened Wrappers
  import Strings

  /** Method -> URI -> handler. The handler is opaque to the router. */
  type Table<H> = map<string, map<string, H>>

  /** One call of `register`, as it appears in an application's route list. */
  datatype Registration<H> = Registration(httpMethod: string, path: string, handler: H)

  /** `register` upper-cases the method and coerces everything other than
      GET and POST to GET. */
  function NormalizeMethod(httpMethod: string): (m: string)
    ensures m == "GET" || m == "POST"
    ensures m == "POST" <==> Strings.EqualsIgnoringCase(httpMethod, "POST")
  {
    var upper := Strings.Upper(httpMethod);
    Strings.UpperEqualsIffIgnoringCase(httpMethod, "POST");
    if upper != "GET" && upper != "POST" then "GET" else upper
  }

  /** Stores `handler` under (normalised method, path), creating the method's
      inner table on first use; an existing entry for the pair is replaced. */
  function Register<H>(table: Table<H>, httpMethod: string, path: string, handler: H): (t: Table<H>)
    ensures NormalizeMethod(httpMethod) in t
    ensures path in t[NormalizeMethod(httpMethod)]
    ensures t[NormalizeMethod(httpMethod)][path] == handler
    ensures t.Keys == table.Keys + {NormalizeMethod(httpMethod)}
    ensures forall m :: m in table && m != NormalizeMethod(httpMethod) ==> t[m] == table[m]
    ensures NormalizeMethod(httpMethod) in table ==>
              t[NormalizeMethod(httpMethod)].Keys == table[NormalizeMethod(httpMethod)].Keys + {path}
    ensures NormalizeMethod(httpMethod) !in table ==> t[NormalizeMethod(httpMethod)].Keys == {path}
    ensures NormalizeMethod(httpMethod) in table ==>
              forall p :: p in table[NormalizeMethod(httpMethod)] && p != path ==>
                t[NormalizeMethod(httpMethod)][p] == table[NormalizeMethod(httpMethod)][p]
  {
    Put(table, NormalizeMethod(httpMethod), path, handler)
  }

  /** The two-level store behind `register`, with the method already normalised. */
  function Put<H>(table: Table<H>, m: string, path: string, handler: H): Table<H>
  {
    var inner := if m in table then table[m] else map[];
    table[m := inner[path := handler]]
  }

  lemma PutCommutes<H>(table: Table<H>, n1: string, p1: string, h1: H, n2: string, p2: string, h2: H)
    requires n1 != n2 || p1 != p2
    ensures Put(Put(table, n1, p1, h1), n2, p2, h2) == Put(Put(table, n2, p2, h2), n1, p1, h1)
  {
    var i1 := if n1 in table then table[n1] else map[];
    var i2 := if n2 in table then table[n2] else map[];
    if n1 == n2 {
      assert i1[p1 := h1][p2 := h2] == i1[p2 := h2][p1 := h1];
    }
  }

  /** Looks the raw request method and URI up as given: no case folding and
      no query-string stripping. */
  function Route<H>(table: Table<H>, requestMethod: string, requestUri: string): (r: Option<H>)
    ensures r.Some? <==> requestMethod in table && requestUri in table[requestMethod]
    ensures r.Some? ==> r.value == table[requestMethod][requestUri]
  {
    if requestMethod in table && requestUri in table[requestMethod] then
      Some(table[requestMethod][requestUri])
    else
      None
  }

  /** The table after an application's registrations, in order. */
  function RegisterAll<H>(regs: seq<Registration<H>>): Table<H>
  {
    if |regs| == 0 then map[]
    else
      var last := regs[|regs| - 1];
      Register(RegisterAll(regs[..|regs| - 1]), last.httpMethod, last.path, last.handler)
  }

  /** Reference definition of routing over the registration list: the handler
      of the latest registration whose normalised method and path are exactly
      the request's. */
  function LastMatch<H>(regs: seq<Registration<H>>, requestMethod: string, requestUri: string): Option<H>
  {
    if |regs| == 0 then None
    else
      var last := regs[|regs| - 1];
      if NormalizeMethod(last.httpMethod) == requestMethod && last.path == requestUri then Some(last.handler)
      else LastMatch(regs[..|regs| - 1], requestMethod, requestUri)
  }

  // -----------------------------------------------------------------------
  // Properties
  // -----------------------------------------------------------------------

  /** Registering and then requesting with the normalised method and the same
      URI yields the registered handler. */
  lemma RegisterThenRoute<H>(table: Table<H>, httpMethod: string, path: string, handler: H)
    ensures Route(Register(table, httpMethod, path, handler), NormalizeMethod(httpMethod), path) == Some(handler)
  {
  }

  /** Registration only affects requests for its own (normalised method, path). */
  lemma RegisterLeavesOtherRoutes<H>(table: Table<H>, httpMethod: string, path: string, handler: H,
                                     requestMethod: string, requestUri: string)
    requires requestMethod != NormalizeMethod(httpMethod) || requestUri != path
    ensures Route(Register(table, httpMethod, path, handler), requestMethod, requestUri)
         == Route(table, requestMethod, requestUri)
  {
  }

  /** A second registration of the same (normalised method, path) replaces the
      first entirely: the table is as if only the second had been made. */
  lemma LastRegistrationWins<H>(table: Table<H>, m1: string, m2: string, path: string, h1: H, h2: H)
    requires NormalizeMethod(m1) == NormalizeMethod(m2)
    ensures Register(Register(table, m1, path, h1), m2, path, h2) == Register(table, m2, path, h2)
  {
    var m := NormalizeMethod(m1);
    var a := Register(Register(table, m1, path, h1), m2, path, h2);
    var b := Register(table, m2, path, h2);
    assert a[m] == b[m];
  }

  /** Registrations for different (normalised method, path) pairs commute. */
  lemma RegistrationsCommute<H>(table: Table<H>, m1: string, p1: string, h1: H,
                                m2: string, p2: string, h2: H)
    requires NormalizeMethod(m1) != NormalizeMethod(m2) || p1 != p2
    ensures Register(Register(table, m1, p1, h1), m2, p2, h2)
         == Register(Register(table, m2, p2, h2), m1, p1, h1)
  {
    PutCommutes(table, NormalizeMethod(m1), p1, h1, NormalizeMethod(m2), p2, h2);
  }

  /** Routing after any sequence of registrations agrees with the reference
      definition: the latest matching registration wins. */
  lemma {:induction false} RouteIsLastMatch<H>(regs: seq<Registration<H>>, requestMethod: string, requestUri: string)
    ensures Route(RegisterAll(regs), requestMethod, requestUri) == LastMatch(regs, requestMethod, requestUri)
  {
    if |regs| > 0 {
      var last := regs[|regs| - 1];
      RouteIsLastMatch(regs[..|regs| - 1], requestMethod, requestUri);
      if NormalizeMethod(last.httpMethod) == requestMethod && last.path == requestUri {
        RegisterThenRoute(RegisterAll(regs[..|regs| - 1]), last.httpMethod, last.path, last.handler);
      } else {
        RegisterLeavesOtherRoutes(RegisterAll(regs[..|regs| - 1]), last.httpMethod, last.path, last.handler,
                                  requestMethod, requestUri);
      }
    }
  }

  /** Every method key the registrations create is exactly "GET" or "POST". */
  lemma {:induction false} RegisteredMethodsAreCanonical<H>(regs: seq<Registration<H>>)
    ensures forall m :: m in RegisterAll(regs) ==> m == "GET" || m == "POST"
  {
    if |regs| > 0 {
      RegisteredMethodsAreCanonical(regs[..|regs| - 1]);
    }
  }

  /** When the reference definition finds a handler, some registration carries
      exactly the request's method (after normalisation) and path. */
  lemma {:induction false} LastMatchHasWitness<H>(regs: seq<Registration<H>>, requestMethod: string, requestUri: string)
    requires LastMatch(regs, requestMethod, requestUri).Some?
    ensures exists i :: 0 <= i < |regs| && NormalizeMethod(regs[i].httpMethod) == requestMethod
                                        && regs[i].path == requestUri
  {
    var last := regs[|regs| - 1];
    if !(NormalizeMethod(last.httpMethod) == requestMethod && last.path == requestUri) {
      var init := regs[..|regs| - 1];
      LastMatchHasWitness(init, requestMethod, requestUri);
      var i :| 0 <= i < |init| && NormalizeMethod(init[i].httpMethod) == requestMethod && init[i].path == requestUri;
      assert regs[i] == init[i];
    }
  }

  /** The request method is compared raw: any request method other than the
      exact strings "GET" and "POST" (a lower-case "get", say) finds nothing. */
  lemma RawMethodNotNormalized<H>(regs: seq<Registration<H>>, requestMethod: string, requestUri: string)
    requires requestMethod != "GET" && requestMethod != "POST"
    ensures Route(RegisterAll(regs), requestMethod, requestUri) == None
  {
    RegisteredMethodsAreCanonical(regs);
  }

  /** The request URI is compared raw: when no registered path contains '?',
      a URI carrying a query string finds nothing. */
  lemma QueryStringNotStripped<H>(regs: seq<Registration<H>>, requestMethod: string, requestUri: string)
    requires forall i :: 0 <= i < |regs| ==> '?' !in regs[i].path
    requires '?' in requestUri
    ensures Route(RegisterAll(regs), requestMethod, requestUri) == None
  {
    RouteIsLastMatch(regs, requestMethod, requestUri);
    if LastMatch(regs, requestMethod, requestUri).Some? {
      LastMatchHasWitness(regs, requestMethod, requestUri);
    }
  }

  /** Method registration is case-insensitive for POST: "post", "Post" and
      "POST" all land under "POST"; anything else ("PUT", "") lands under "GET". */
  lemma RegisterMethodKey<H>(table: Table<H>, httpMethod: string, path: string, handler: H)
    ensures Strings.EqualsIgnoringCase(httpMethod, "POST") ==>
              "POST" in Register(table, httpMethod, path, handler)
              && Register(table, httpMethod, path, handler)["POST"][path] == handler
    ensures !Strings.EqualsIgnoringCase(httpMethod, "POST") ==>
              "GET" in Register(table, httpMethod, path, handler)
              && Register(table, httpMethod, path, handler)["GET"][path] == handler
  {
  }
}

=== FILE: strings.dfy ===
/** String primitives the PHP core relies on: `strtoupper`, the
    "separator only between items" joining loop, first-occurrence search,
    and PHP's conversion of an integer to its decimal string. */
module Strings {

  // ---------------------------------------------------------------------
  // strtoupper (ASCII, locale-independent)
  // ---------------------------------------------------------------------

  predicate IsLowerAscii(c: char) { 'a' <= c <= 'z' }

  predicate IsUpperAscii(c: char) { 'A' <= c <= 'Z' }

  /** PHP's strtoupper on one byte: only 'a'..'z' change. */
  function UpperChar(c: char): char
  {
    if IsLowerAscii(c) then (c as int - 32) as char else c
  }

  function Upper(s: string): (r: string)
    ensures |r| == |s|
    ensures forall i :: 0 <= i < |s| ==> r[i] == UpperChar(s[i])
  {
    if s == [] then [] else [UpperChar(s[0])] + Upper(s[1..])
  }

  /** `a` is the letter `u` written in either case (or is `u` itself). */
  predicate SameLetterIgnoringCase(a: char, u: char)
  {
    a == u || (IsUpperAscii(u) && a as int == u as int + 32)
  }

  /** `s` spells the upper-case word `w` in any mixture of cases. */
  predicate EqualsIgnoringCase(s: string, w: string)
  {
    |s| == |w| && forall i :: 0 <= i < |s| ==> SameLetterIgnoringCase(s[i], w[i])
  }

  predicate AllUpperAscii(w: string)
  {
    forall i :: 0 <= i < |w| ==> IsUpperAscii(w[i])
  }

  /** Upper-casing yields an all-capitals word exactly when the input spells
      that word in some mixture of cases. */
  lemma UpperEqualsIffIgnoringCase(s: string, w: string)
    requires AllUpperAscii(w)
    ensures Upper(s) == w <==> EqualsIgnoringCase(s, w)
  {
    if Upper(s) == w {
      forall i | 0 <= i < |s| ensures SameLetterIgnoringCase(s[i], w[i]) {
        assert UpperChar(s[i]) == w[i];
      }
    }
    if EqualsIgnoringCase(s, w) {
      forall i | 0 <= i < |s| ensures Upper(s)[i] == w[i] {
        assert SameLetterIgnoringCase(s[i], w[i]);
      }
    }
  }

  // ---------------------------------------------------------------------
  // Joining with a separator between consecutive items
  // ---------------------------------------------------------------------

  /** The items in order with `sep` between each consecutive pair. */
  function Join(xs: seq<string>, sep: string): string
  {
    if |xs| == 0 then ""
    else if |xs| == 1 then xs[0]
    else Join(xs[..|xs| - 1], sep) + sep + xs[|xs| - 1]
  }

  function TotalLength(xs: seq<string>): nat
  {
    if |xs| == 0 then 0 else TotalLength(xs[..|xs| - 1]) + |xs[|xs| - 1]|
  }

  /** n items give exactly n - 1 separators: the joined length is the items'
      total length plus one separator per gap. */
  lemma {:induction false} JoinLength(xs: seq<string>, sep: string)
    requires |xs| > 0
    ensures |Join(xs, sep)| == TotalLength(xs) + (|xs| - 1) * |sep|
  {
    if |xs| == 1 {
      assert TotalLength(xs) == TotalLength(xs[..0]) + |xs[0]|;
    } else {
      JoinLength(xs[..|xs| - 1], sep);
      assert xs[..|xs| - 1][..|xs| - 2] == xs[..|xs| - 2];
    }
  }

  /** No leading or trailing separator: the joined text starts with the first
      item and ends with the last. */
  lemma {:induction false} JoinEnds(xs: seq<string>, sep: string)
    requires |xs| > 0
    ensures |xs[0]| <= |Join(xs, sep)|
    ensures Join(xs, sep)[..|xs[0]|] == xs[0]
    ensures Join(xs, sep)[|Join(xs, sep)| - |xs[|xs| - 1]|..] == xs[|xs| - 1]
  {
    if |xs| > 1 {
      var init := xs[..|xs| - 1];
      JoinEnds(init, sep);
      assert init[0] == xs[0];
      var j := Join(init, sep);
      assert Join(xs, sep) == j + sep + xs[|xs| - 1];
      assert (j + sep + xs[|xs| - 1])[..|xs[0]|] == j[..|xs[0]|];
    }
  }

  /** Cutting a concatenation at its seams gives back the parts. */
  lemma Seams(a: string, b: string, c: string)
    ensures |a + b + c| == |a| + |b| + |c|
    ensures (a + b + c)[..|a|] == a
    ensures (a + b + c)[|a|..|a| + |b|] == b
    ensures (a + b + c)[|a| + |b|..] == c
  {
  }

  // ---------------------------------------------------------------------
  // First occurrence of a character
  // ---------------------------------------------------------------------

  /** Index of the first `c` in `s`, or |s| when there is none. */
  function IndexOf(s: string, c: char): (i: nat)
    ensures i <= |s|
    ensures i < |s| ==> s[i] == c
    ensures forall j :: 0 <= j < i ==> s[j] != c
  {
    if s == [] then 0
    else if s[0] == c then 0
    else 1 + IndexOf(s[1..], c)
  }

  /** The first `c` in `a + b` is at |a| when `a` has none and `b` begins with one. */
  lemma IndexOfAfter(a: string, b: string, c: char)
    requires c !in a
    requires |b| > 0 && b[0] == c
    ensures IndexOf(a + b, c) == |a|
  {
    assert (a + b)[|a|] == c;
  }

  // ---------------------------------------------------------------------
  // Decimal text of integers (PHP's int-to-string conversion)
  // ---------------------------------------------------------------------

  predicate IsDigit(c: char) { '0' <= c <= '9' }

  function DigitChar(d: nat): char
    requires d < 10
  {
    ('0' as int + d) as char
  }

  function DigitValue(c: char): nat
    requires IsDigit(c)
  {
    c as int - '0' as int
  }

  /** Decimal digits of `n` without leading zeros. */
  function NatToString(n: nat): (s: string)
    ensures |s| > 0
    ensures forall i :: 0 <= i < |s| ==> IsDigit(s[i])
    decreases n
  {
    if n < 10 then [DigitChar(n)] else NatToString(n / 10) + [DigitChar(n % 10)]
  }

  /** PHP renders a negative integer with a leading '-'. */
  function IntToString(i: int): string
  {
    if i < 0 then "-" + NatToString(-i) else NatToString(i)
  }

  /** Reads a string of decimal digits back as a number. */
  function ParseNat(s: string): nat
    requires forall i :: 0 <= i < |s| ==> IsDigit(s[i])
  {
    if s == [] then 0 else ParseNat(s[..|s| - 1]) * 10 + DigitValue(s[|s| - 1])
  }

  function ParseInt(s: string): int
    requires |s| > 0
    requires s[0] == '-' || IsDigit(s[0])
    requires forall i :: 1 <= i < |s| ==> IsDigit(s[i])
  {
    if s[0] == '-' then 0 - ParseNat(s[1..]) as int else ParseNat(s)
  }

  lemma {:induction false} NatToStringRoundTrip(n: nat)
    ensures ParseNat(NatToString(n)) == n
    decreases n
  {
    if n >= 10 {
      NatToStringRoundTrip(n / 10);
      var s := NatToString(n);
      assert s[..|s| - 1] == NatToString(n / 10);
    }
  }

  /** The decimal text of an integer reads back as that integer. */
  lemma IntToStringRoundTrip(i: int)
    ensures |IntToString(i)| > 0
    ensures IntToString(i)[0] == '-' || IsDigit(IntToString(i)[0])
    ensures forall k :: 1 <= k < |IntToString(i)| ==> IsDigit(IntToString(i)[k])
    ensures ParseInt(IntToString(i)) == i
  {
    if i < 0 {
      NatToStringRoundTrip(-i);
      assert IntToString(i)[1..] == NatToString(-i);
    } else {
      NatToStringRoundTrip(i);
    }
  }
}

=== FILE: wrappers.dfy ===
/** The optional-value type shared by every module of the model: PHP's
    "return nothing" (an implicit `null`) becomes `None`. */
module Wrappers {

  datatype Option<+T> = None | Some(value: T) {

    /** Returns the value held in Some, or a default when None. */
    function GetOr(default: T): T
    {
      match this
      case Some(v) => v
      case None => default
    }
  }
}
